=== FILE: README.md ===
# Spotify playback screen: a Dafny model

This project models the client-side state bookkeeping of an Android app that
shows and controls the track playing on a Spotify account. It covers the
player screen (`PlayerActivity`) and the home screen's client-ID check
(`HomeActivity`). The app polls the Web API for the player state and reduces
each response to a `TrackInfo` snapshot. It reconciles the snapshot with what
the screen shows and reacts to the user's buttons and gestures. Every one of
these steps is modelled as a pure function from one state record to the next,
together with the ordered list of UI refreshes and requests it triggers
(`Player.Effect`).

Modules, in dependency order:

- `Basics` (basics.dfy): an option type, JVM integer arithmetic (wrap-around,
  saturating casts, truncating `/` and `%`) and decimal text.
- `Json` (json.dfy): a parsed JSON document and the accessors of Android's
  `org.json` that the app uses (`optString`, `optBoolean`, `optInt`,
  `optLong`, `getJSONObject`, `getBoolean`, ...).
- `Extract` (extract.dfy): `extractTrackInfo` and its two change detectors.
- `Format` (format.dfy): the `mm:ss` clock, the artist line and the seek
  position.
- `Player` (player.dfy): the screen state, the field setters (`handle*`) and
  the reconciler `handleTrackInfo`.
- `Connectivity` (connectivity.dfy): the edge-triggered "no internet" and
  "no track playing" messages.
- `Polling` (polling.dfy): token expiry, the periodic task and one poll.
- `Responses` (responses.dfy): the artist-image and like-status side requests.
- `Commands` (commands.dfy): buttons, double tap, seek bar, and the
  confirmations of the requests.
- `Gestures` (gestures.dfy): fling classification, the skip swipes and the
  swipe volume steps.
- `Home` (home.dfy): `checkClientID`, the submit button, the first start and
  the settings the player reads.

Modelling conventions:

- An uncaught exception in the source is an explicit outcome:
  `Player.Crashed`, or `None` in an `Option`.
- Network responses, the connectivity service's answer, the clock and whether
  an image is displayed are parameters.
- A source path that is wrong is modelled twice: once as written (a member
  whose name ends in `AsWritten`) and once corrected. The rest of the model
  uses the corrected member. See "## Findings".

Two details of the code that the model keeps:

- The periodic task posts its next run after re-authenticating as well as
  after fetching (PlayerActivity.kt line 2653), so polling goes on while the
  app authenticates.
- When `actions.disallows.toggling_shuffle` is missing, the code reports
  shuffling as allowed (`!false`, lines 2734-2740 and 2795).

## Model

| member | source | states |
|---|---|---|
| Basics.ToInt32 | app/src/main/java/com/example/spotifyplayback/PlayerActivity.kt:2729 | `intValue()` narrowing: the result is a 32-bit value congruent to the input modulo 2^32, and in-range values pass unchanged |
| Basics.ToInt64 | app/src/main/java/com/example/spotifyplayback/PlayerActivity.kt:866 | `long` arithmetic: the result is a 64-bit value congruent to the exact one modulo 2^64, and in-range results are exact |
| Basics.JavaDiv | app/src/main/java/com/example/spotifyplayback/PlayerActivity.kt:1920-1921 | Kotlin `/` truncates toward zero: floor division for a non-negative dividend, negated floor division of the negation otherwise |
| Basics.JavaRem | app/src/main/java/com/example/spotifyplayback/PlayerActivity.kt:1921 | Kotlin `%`: dividend = divisor * quotient + remainder, with the remainder carrying the dividend's sign and smaller than the divisor |
| Basics.IntToStringRoundTrip | app/src/main/java/com/example/spotifyplayback/PlayerActivity.kt:866 | a `long` written as decimal text parses back to the same number, which is how the stored expiration is read |
| Json.ToBoolean | app/src/main/java/com/example/spotifyplayback/PlayerActivity.kt:2927 | the library's boolean reading: a boolean as is, the text "true"/"false" in any case, nothing else |
| Json.OptString | app/src/main/java/com/example/spotifyplayback/PlayerActivity.kt:2743 | a missing member reads as "", a string member as itself |
| Json.OptBoolean | app/src/main/java/com/example/spotifyplayback/PlayerActivity.kt:2723-2725 | true exactly when the member is present and reads as true |
| Json.OptInt | app/src/main/java/com/example/spotifyplayback/PlayerActivity.kt:2729 | always a 32-bit value; 0 when missing; an in-range number as is |
| Json.OptLong | app/src/main/java/com/example/spotifyplayback/PlayerActivity.kt:2767-2768 | 0 when missing; a number as is |
| Json.OptObject | app/src/main/java/com/example/spotifyplayback/PlayerActivity.kt:2715 | present exactly when the member is an object, and then that object |
| Json.OptArray | app/src/main/java/com/example/spotifyplayback/PlayerActivity.kt:2753 | present exactly when the member is an array, and then that array |
| Json.GetObject | app/src/main/java/com/example/spotifyplayback/PlayerActivity.kt:2735-2736 | the strict getter succeeds on exactly the members the lenient one accepts |
| Json.GetBoolean | app/src/main/java/com/example/spotifyplayback/PlayerActivity.kt:2737 | throws on a missing member; when it succeeds it agrees with the lenient reading |
| Extract.ExtractArtists | app/src/main/java/com/example/spotifyplayback/PlayerActivity.kt:2752-2763 | succeeds exactly when every entry is an object, and then gives one (name, href) pair per entry, in order |
| Extract.FirstImage | app/src/main/java/com/example/spotifyplayback/PlayerActivity.kt:2771-2779 | no URL exactly when the album or its image list is missing or empty; a throw exactly when the first entry is not an object; otherwise the `url` member of the first entry |
| Extract.ShuffleToggleDisallowed | app/src/main/java/com/example/spotifyplayback/PlayerActivity.kt:2734-2740 | disallowed exactly when the document has an `actions` object holding a `disallows` object whose `toggling_shuffle` reads as true; every failure of the path reads as "not disallowed" |
| Extract.ExtractTrackInfo | app/src/main/java/com/example/spotifyplayback/PlayerActivity.kt:2712-2798 | no `item`: the sentinel snapshot and unchanged detectors; otherwise same-track iff the id equals the previous id (which is then replaced), same-image iff there is a first image URL equal to the previous one, the previous image replaced only by a present URL, shuffle allowed iff not disallowed; artists, first image, playing flag, duration, progress, shuffle flags and the device's volume, volume support and name are each read from their own member, with the library defaults when missing; it throws exactly when an artist entry or the first image entry is not an object |
| Extract.ExtractTwiceIsSame | app/src/main/java/com/example/spotifyplayback/PlayerActivity.kt:2746-2787 | extracting the same document again reports the same track and, when there is an image, the same image, and changes no detector |
| Extract.NoItemKeepsDetectors | app/src/main/java/com/example/spotifyplayback/PlayerActivity.kt:2715-2720 | a document without `item` has no influence on any later extraction |
| Format.Pad2 | app/src/main/java/com/example/spotifyplayback/PlayerActivity.kt:1922-1924 | `%02d`: at least two characters; a non-negative value is written in digits that read back as the value, exactly two of them below 100 |
| Format.Clock | app/src/main/java/com/example/spotifyplayback/PlayerActivity.kt:1920-1924 | the `mm:ss` text has at least five characters and a colon three from the end for a non-negative count |
| Format.ClockRoundTrip | app/src/main/java/com/example/spotifyplayback/PlayerActivity.kt:1977-1981 | the clock of a non-negative count reads back as whole minutes and seconds below 60 that lie within one second below the count |
| Format.JoinArtistsAsWritten | app/src/main/java/com/example/spotifyplayback/PlayerActivity.kt:1887-1897 | the artist line as built, with the separator test on names; see `Format.DuplicateLastNameDropsComma` |
| Format.JoinArtists | app/src/main/java/com/example/spotifyplayback/PlayerActivity.kt:1887-1897 | the loop builds the reference join (names separated by ", " with none after the last) and ends with the last name |
| Format.AsWrittenAgreesWhenLastUnique | app/src/main/java/com/example/spotifyplayback/PlayerActivity.kt:1892 | the name-based separator test gives the reference join whenever the last name occurs only once |
| Format.AsWrittenAgreesIffLastUnique | app/src/main/java/com/example/spotifyplayback/PlayerActivity.kt:1887-1897 | the line as built equals the reference join exactly when no earlier name equals the last one, and is shorter otherwise |
| Format.DuplicateLastNameDropsComma | app/src/main/java/com/example/spotifyplayback/PlayerActivity.kt:1892-1894 | for the names A, B, A the line as built is "AB, A" while the reference join is "A, B, A" |
| Format.SeekPosition | app/src/main/java/com/example/spotifyplayback/PlayerActivity.kt:513 | for a bar position in 0..1000 and a duration whose product fits a `long`, the target lies in the track and is the floor of the picked fraction; 0 at the start, the duration at the end |
| Format.SeekMonotone | app/src/main/java/com/example/spotifyplayback/PlayerActivity.kt:2105 | moving the bar forward never moves the seek target backward |
| Player.PlayButton | app/src/main/java/com/example/spotifyplayback/PlayerActivity.kt:2122-2133 | records the given playing state and keeps the pending-request flag |
| Player.LikeStatus | app/src/main/java/com/example/spotifyplayback/PlayerActivity.kt:2143-2154 | records the given like state and keeps both throttle flags |
| Player.ShuffleStatusAsWritten | app/src/main/java/com/example/spotifyplayback/PlayerActivity.kt:2168-2204 | as written: shuffle off keeps the stored smart flag, and "disallowed" keeps the stored permission |
| Player.ShuffleStatus | app/src/main/java/com/example/spotifyplayback/PlayerActivity.kt:2168-2204 | records what it shows: the reported permission, shuffle only when allowed, smart shuffle only with shuffle on |
| Player.Volume | app/src/main/java/com/example/spotifyplayback/PlayerActivity.kt:2216-2234 | without a volume nothing changes; with one the volume is taken, and the support flag when reported; the pending flag is kept |
| Player.DeviceName | app/src/main/java/com/example/spotifyplayback/PlayerActivity.kt:2243-2249 | only a present, non-empty name replaces the stored one |
| Player.CoverRefresh | app/src/main/java/com/example/spotifyplayback/PlayerActivity.kt:1905-1914 | the cover is loaded once when it is a new image, when nothing is shown, or after a swipe; it waits for the swipe only when an image is shown |
| Player.NewTrack | app/src/main/java/com/example/spotifyplayback/PlayerActivity.kt:1881-1930 | fails exactly on an empty artist list; otherwise records id, duration and (when reloaded) the cover, clears the swipe flag, shows title and artist line first, asks for the first artist's image and shows the total time last |
| Player.LikeThrottle | app/src/main/java/com/example/spotifyplayback/PlayerActivity.kt:1934-1940 | queries the like status exactly when no like request is pending and the last reconciliation did not query, and records whether it did |
| Player.ShuffleRefresh | app/src/main/java/com/example/spotifyplayback/PlayerActivity.kt:1944-1948 | redraws exactly when one of the three shuffle values differs; afterwards the stored permission is the reported one |
| Player.VolumeRefresh | app/src/main/java/com/example/spotifyplayback/PlayerActivity.kt:1952-1958 | a pending volume request is consumed and nothing shown; otherwise the reported volume and support flag are taken, and the reported volume is shown exactly when it is present and differs |
| Player.PlaybackRefresh | app/src/main/java/com/example/spotifyplayback/PlayerActivity.kt:1962-1967 | a pending play/pause request is consumed and the state kept; otherwise the reported state is taken and the button redrawn iff it differs or on the first call |
| Player.ProgressRefresh | app/src/main/java/com/example/spotifyplayback/PlayerActivity.kt:1976-1981 | the progress clock is shown unless the seek bar is held |
| Player.DeviceRefresh | app/src/main/java/com/example/spotifyplayback/PlayerActivity.kt:1989-1991 | a present, non-empty name replaces the stored one, and it is shown exactly when it differs from the stored one |
| Player.DeviceRefreshSettles | app/src/main/java/com/example/spotifyplayback/PlayerActivity.kt:1989-1991 | refreshing again with the same snapshot keeps the stored name and shows nothing |
| Player.FirstCallRefresh | app/src/main/java/com/example/spotifyplayback/PlayerActivity.kt:1869-1877 | the message is hidden and the controls shown exactly on the first call |
| Player.TrackRefresh | app/src/main/java/com/example/spotifyplayback/PlayerActivity.kt:1881 | the same track changes nothing; fails exactly for a new track without artists |
| Player.Reconcile | app/src/main/java/com/example/spotifyplayback/PlayerActivity.kt:1859-1993 | a snapshot without id or title changes nothing; the only exception is a new track without artists; the message flags, the image detectors and the seek-bar flag are untouched |
| Player.ShuffleRefreshAsWritten | app/src/main/java/com/example/spotifyplayback/PlayerActivity.kt:1944-1948 | the shuffle refresh through the setter as written; same redraw condition |
| Player.ShuffleSettles | app/src/main/java/com/example/spotifyplayback/PlayerActivity.kt:1944-1948 | with the corrected setter one refresh brings the stored state in line with any consistent snapshot, so the next poll redraws nothing |
| Player.ShuffleAsWrittenNeverSettles | app/src/main/java/com/example/spotifyplayback/PlayerActivity.kt:2185-2203 | as written, turning shuffle off after smart shuffle, or disallowing it after it was allowed, redraws the button on every following poll |
| Player.ReconcileFirstCall | app/src/main/java/com/example/spotifyplayback/PlayerActivity.kt:1869-1877 | the first reconciliation hides the message and shows the controls before anything else; the first call is over afterwards |
| Player.ReconcileTrackFields | app/src/main/java/com/example/spotifyplayback/PlayerActivity.kt:1881-1930 | a new track replaces id and duration and clears the swipe flag; the same track leaves the track fields alone |
| Player.ReconcileSkipsOnce | app/src/main/java/com/example/spotifyplayback/PlayerActivity.kt:1952-1967 | with both requests pending the next reconciliation keeps volume and playing state and the one after takes the reported values |
| Player.ReconcileLikeQuery | app/src/main/java/com/example/spotifyplayback/PlayerActivity.kt:1934-1940 | a reconciliation queries the like status at most once, exactly when nothing is pending and the last one did not query, and records whether it did |
| Player.LikeQueryEveryOtherPoll | app/src/main/java/com/example/spotifyplayback/PlayerActivity.kt:1934-1940 | with no like request pending, of two reconciliations in a row exactly one queries the like status |
| Connectivity.CheckInternet | app/src/main/java/com/example/spotifyplayback/PlayerActivity.kt:905-926 | the flag becomes the reported availability; a connected-to-disconnected change shows the message, a disconnected-to-connected change hides it, and nothing happens when nothing changed |
| Connectivity.CheckTrackState | app/src/main/java/com/example/spotifyplayback/PlayerActivity.kt:936-965 | the flag becomes "no track playing" for the body; a message is shown or hidden exactly when that changes |
| Connectivity.CheckAllShowsOncePerDrop | app/src/main/java/com/example/spotifyplayback/PlayerActivity.kt:905-926 | over any series of checks the message is shown once per connected-to-disconnected transition and hidden once per disconnected-to-connected one, and the flag ends at the last sample |
| Connectivity.RepeatedFailuresShowOnce | app/src/main/java/com/example/spotifyplayback/PlayerActivity.kt:909-915 | from a connected state any number of failed checks shows the message exactly once |
| Connectivity.CheckTrackStateSettles | app/src/main/java/com/example/spotifyplayback/PlayerActivity.kt:936-965 | the same body checked twice: the second check changes and shows nothing |
| Polling.ParseLong | app/src/main/java/com/example/spotifyplayback/PlayerActivity.kt:866 | `toLong()`: succeeds only on decimal text within the 64-bit range |
| Polling.IsTokenExpired | app/src/main/java/com/example/spotifyplayback/PlayerActivity.kt:861-869 | an empty expiration is expired; it throws exactly on an unparsable one |
| Polling.StoredExpirationIsRead | app/src/main/java/com/example/spotifyplayback/PlayerActivity.kt:866 | a stored `long` is read back, and the token counts as expired exactly when now plus five minutes is past it |
| Polling.PollTick | app/src/main/java/com/example/spotifyplayback/PlayerActivity.kt:2641-2656 | re-authenticate when expired, fetch otherwise, and post the next run in both cases |
| Polling.Poll | app/src/main/java/com/example/spotifyplayback/PlayerActivity.kt:2669-2702 | offline only the connectivity flag changes; it can only crash on a playing-track body |
| Polling.PollReconciles | app/src/main/java/com/example/spotifyplayback/PlayerActivity.kt:2669-2702 | an online poll of a playing track with an id hides the pending messages and then reconciles exactly as `handleTrackInfo` does on the extracted snapshot, with the connectivity flags set and the new detectors stored |
| Polling.PollWithoutTrack | app/src/main/java/com/example/spotifyplayback/PlayerActivity.kt:2686-2688 | a body without a playing track only sets the two message flags |
| Polling.PollKeepsDetectors | app/src/main/java/com/example/spotifyplayback/PlayerActivity.kt:2691-2692 | a poll of a playing track stores the extractor's new detectors |
| Polling.Start | app/src/main/java/com/example/spotifyplayback/PlayerActivity.kt:1104-1125 | the next reconciliation counts as the first; a valid token shows the loading message and starts polling, an expired one re-authenticates or shows the dialog depending on the connectivity |
| Polling.StartThenReconcile | app/src/main/java/com/example/spotifyplayback/PlayerActivity.kt:1104-1106 | after a (re)start the first reconciliation hides the message and shows the controls first |
| Responses.GateAsWritten | app/src/main/java/com/example/spotifyplayback/PlayerActivity.kt:2818 | as written: throws exactly on an empty body, and passes a body only when it starts with the expected bracket |
| Responses.Gate | app/src/main/java/com/example/spotifyplayback/PlayerActivity.kt:2818 | passes exactly the non-empty bodies starting with the expected bracket, and agrees with the gate as written wherever that does not throw |
| Responses.EmptyBodyCrashesGate | app/src/main/java/com/example/spotifyplayback/PlayerActivity.kt:2818 | an empty body throws in both gates as written and is dropped by the corrected gate |
| Responses.ArtistImageRefresh | app/src/main/java/com/example/spotifyplayback/PlayerActivity.kt:2002-2037 | a non-empty URL is shown, anything else reported as unavailable |
| Responses.ExtractArtistImage | app/src/main/java/com/example/spotifyplayback/PlayerActivity.kt:2835-2879 | an empty body changes nothing; it throws exactly when there is no error object and the first image entry is not an object |
| Responses.ArtistImageChange | app/src/main/java/com/example/spotifyplayback/PlayerActivity.kt:2859-2878 | the previous URL follows a present URL; the image is refreshed exactly when it is new or on the first response, and otherwise nothing changes |
| Responses.ArtistImageSettles | app/src/main/java/com/example/spotifyplayback/PlayerActivity.kt:2866-2877 | the same URL applied twice: the second time nothing is refreshed or changed |
| Responses.ArtistResponseAsWritten | app/src/main/java/com/example/spotifyplayback/PlayerActivity.kt:2807-2825 | an empty body throws |
| Responses.ArtistResponse | app/src/main/java/com/example/spotifyplayback/PlayerActivity.kt:2807-2825 | with the corrected gate an empty body changes nothing, and only a non-object image entry throws |
| Responses.LikedOf | app/src/main/java/com/example/spotifyplayback/PlayerActivity.kt:2927 | a like state only from a non-empty array whose first element reads as a boolean |
| Responses.ExtractLikeStatus | app/src/main/java/com/example/spotifyplayback/PlayerActivity.kt:2918-2972 | a like state is recorded and shown only when it differs; the throttle flags are kept; a body without one changes nothing and reports a rate limit when the text says so |
| Responses.LikeStatusSettles | app/src/main/java/com/example/spotifyplayback/PlayerActivity.kt:2930-2932 | the same like-status body twice: the second time nothing changes or shows |
| Responses.LikeResponseAsWritten | app/src/main/java/com/example/spotifyplayback/PlayerActivity.kt:2889-2907 | an empty body throws |
| Responses.LikeResponse | app/src/main/java/com/example/spotifyplayback/PlayerActivity.kt:2889-2907 | never throws; only a body starting with `[` is read |
| Responses.GatedLikeErrorsAreRateLimits | app/src/main/java/com/example/spotifyplayback/PlayerActivity.kt:2946-2969 | behind the gate the error-object branch is unreachable: only a like change or the rate-limit message can show |
| Commands.SendRequest | app/src/main/java/com/example/spotifyplayback/PlayerActivity.kt:1136-1140 | the connectivity flag becomes the availability; the request goes out once when available and not at all otherwise; the message shows once on a drop |
| Commands.PlayPauseButton | app/src/main/java/com/example/spotifyplayback/PlayerActivity.kt:441-443 | asks once (when online) for the opposite of the shown playing state, which stays as it is until confirmed |
| Commands.SkipButton | app/src/main/java/com/example/spotifyplayback/PlayerActivity.kt:446-453 | asks once (when online) for the next or previous track |
| Commands.ShuffleButton | app/src/main/java/com/example/spotifyplayback/PlayerActivity.kt:456-466 | where shuffling is allowed asks once (when online) for the opposite of the shown state, never for the same; elsewhere only a message |
| Commands.LikeButtonAsWritten | app/src/main/java/com/example/spotifyplayback/PlayerActivity.kt:469-478 | as written: with a track shown the like state flips and a like request is marked pending, whether or not one went out |
| Commands.LikeRequest | app/src/main/java/com/example/spotifyplayback/PlayerActivity.kt:1338-1342 | `sendLikeRequest`: the connectivity check, the request only when it passes, the new like state shown last; the opposite request never goes out |
| Commands.RequestLike | app/src/main/java/com/example/spotifyplayback/PlayerActivity.kt:1338-1342 | a like request shows the new state at once, goes out iff the connectivity check passes, and is pending iff it went out (or one already was); the opposite request never goes out |
| Commands.LikeButton | app/src/main/java/com/example/spotifyplayback/PlayerActivity.kt:469-478 | with a track shown the opposite of the shown state is requested and shown |
| Commands.DoubleTap | app/src/main/java/com/example/spotifyplayback/PlayerActivity.kt:680-697 | never unlikes: a liked track keeps its like state; otherwise it ends liked exactly when a track is playing and the gesture is enabled |
| Commands.DoubleTapNeverUnlikes | app/src/main/java/com/example/spotifyplayback/PlayerActivity.kt:682-691 | a double tap never sends an unlike request for the shown track |
| Commands.DoubleTapAsWritten | app/src/main/java/com/example/spotifyplayback/PlayerActivity.kt:680-697 | as written: a double tap on an unliked playing track marks a like request pending whether or not one went out; a liked track is untouched; it likes exactly what the corrected double tap likes |
| Commands.OfflineDoubleTapAsWritten | app/src/main/java/com/example/spotifyplayback/PlayerActivity.kt:684-691 | as written an offline double tap sends no like request yet marks one pending, where the corrected double tap leaves the mark alone |
| Commands.LikeConfirmedAsWritten | app/src/main/java/com/example/spotifyplayback/PlayerActivity.kt:1370-1408 | as written: a success clears the pending mark, keeps the like state, and redraws and reports the like state shown when the response arrives; a failure is only reported |
| Commands.LikeConfirmed | app/src/main/java/com/example/spotifyplayback/PlayerActivity.kt:1370-1408 | either outcome clears the pending mark and keeps the like state; a success is exactly the code's success, and a failure is reported as in the code |
| Commands.PendingLikeBlocksQueries | app/src/main/java/com/example/spotifyplayback/PlayerActivity.kt:1934-1940 | while a like request is pending no reconciliation queries the like status and it stays pending |
| Commands.OfflineLikeSendsNothingAsWritten | app/src/main/java/com/example/spotifyplayback/PlayerActivity.kt:469-478 | as written an offline like click sends nothing yet marks a request pending |
| Commands.OfflineLikeBlocksQueriesAsWritten | app/src/main/java/com/example/spotifyplayback/PlayerActivity.kt:1338-1342 | as written an offline like click blocks every later like-status query |
| Commands.LikeQueriesResume | app/src/main/java/com/example/spotifyplayback/PlayerActivity.kt:1372-1374 | with the correction an offline click leaves the pending mark alone and any response clears it, after which one of every two reconciliations queries again |
| Commands.PlaybackConfirmed | app/src/main/java/com/example/spotifyplayback/PlayerActivity.kt:1160-1187 | a successful play/pause request shows the requested state and marks it to be kept by the next reconciliation; a failure only shows the error toast |
| Commands.SkipConfirmed | app/src/main/java/com/example/spotifyplayback/PlayerActivity.kt:1228-1250 | a successful skip fetches the player state at once; a failure only shows the error toast; the screen is unchanged either way |
| Commands.VolumeConfirmed | app/src/main/java/com/example/spotifyplayback/PlayerActivity.kt:1500-1526 | a successful volume request is shown, volume control known to be supported, and marked to be kept by the next reconciliation; a failure only shows the error toast |
| Commands.ShuffleConfirmed | app/src/main/java/com/example/spotifyplayback/PlayerActivity.kt:1290-1324 | a successful shuffle request shows shuffle on or off, smart shuffle off, shuffling allowed; a failure only shows the error toast |
| Commands.ShuffleConfirmedAsWritten | app/src/main/java/com/example/spotifyplayback/PlayerActivity.kt:1290-1324 | as written a success goes through the setter as written: shuffle off keeps the stored smart flag; a failure only shows the error toast; it agrees with the corrected outcome exactly on a failure, on shuffle on, or when smart shuffle was off |
| Commands.ConfirmedVolumeSkipsOnePoll | app/src/main/java/com/example/spotifyplayback/PlayerActivity.kt:1505-1509 | a confirmed volume survives exactly one reconciliation of the same track |
| Commands.SeekStarted | app/src/main/java/com/example/spotifyplayback/PlayerActivity.kt:495-505 | holding the bar stops every progress refresh of the reconciler |
| Commands.SeekReleased | app/src/main/java/com/example/spotifyplayback/PlayerActivity.kt:507-515 | releasing the bar asks once (when online) for the position picked on the bar; the bar stays held until confirmed |
| Commands.SeekConfirmed | app/src/main/java/com/example/spotifyplayback/PlayerActivity.kt:1441-1464 | after a successful seek every reconciliation shows the progress clock again; a failure only shows the error toast and leaves the bar held |
| Commands.UnconfirmedSeekKeepsBarHeld | app/src/main/java/com/example/spotifyplayback/PlayerActivity.kt:1419-1464 | only a successful seek releases the bar: an offline release sends nothing and a failed seek changes nothing, so the bar stays held and no reconciliation shows the progress |
| Commands.TimeProgress | app/src/main/java/com/example/spotifyplayback/PlayerActivity.kt:2102-2112 | while the bar is held the clock shows the position a release would ask for, which reads back as a time within the track |
| Gestures.Fling | app/src/main/java/com/example/spotifyplayback/PlayerActivity.kt:564-603 | a swipe only from inside the border bands; right/left exactly when the horizontal distance dominates and exceeds 150 in that direction, down/up exactly when it does not and the vertical distance exceeds 150 |
| Gestures.FlingMirrors | app/src/main/java/com/example/spotifyplayback/PlayerActivity.kt:576-599 | mirroring a fling left to right (or top to bottom) mirrors its classification |
| Gestures.ShortFlingIgnored | app/src/main/java/com/example/spotifyplayback/PlayerActivity.kt:580-597 | a fling no longer than 150 along both axes is never a swipe |
| Gestures.SwipeSkip | app/src/main/java/com/example/spotifyplayback/PlayerActivity.kt:741-760 | nothing unless online and horizontal swipes enabled; otherwise the swipe flag is set and the next (left) or previous (right) track is asked for once when the connectivity check passes, never the other one |
| Gestures.SwipeDefersCover | app/src/main/java/com/example/spotifyplayback/PlayerActivity.kt:1686-1697 | after a skip swipe the next cover is loaded once, at the end of the swipe animation, whatever the image |
| Gestures.VolumeUp | app/src/main/java/com/example/spotifyplayback/PlayerActivity.kt:786-790 | no request exactly at 100 or above; from a volume in 0..100 the request is above it and at most 100, ten more unless capped |
| Gestures.VolumeDown | app/src/main/java/com/example/spotifyplayback/PlayerActivity.kt:827-831 | no request exactly at 0 or below; from a volume in 0..100 the request is below it and at least 0, ten less unless floored |
| Gestures.VolumeStepsInverse | app/src/main/java/com/example/spotifyplayback/PlayerActivity.kt:786-790 | away from the ends of the range a step up and a step down undo each other |
| Gestures.SwipesUpReachFull | app/src/main/java/com/example/spotifyplayback/PlayerActivity.kt:786-790 | from any volume in range enough swipes up (ten always suffice) reach 100 and stay there |
| Gestures.VolumeRequest | app/src/main/java/com/example/spotifyplayback/PlayerActivity.kt:1480-1484 | no step: only the volume bar; a step: the connectivity check, then the bar last |
| Gestures.VolumeRequestSends | app/src/main/java/com/example/spotifyplayback/PlayerActivity.kt:1480-1484 | the step goes out once exactly when it exists and the check passes |
| Gestures.SwipeVolume | app/src/main/java/com/example/spotifyplayback/PlayerActivity.kt:776-807 | nothing unless online and vertical swipes enabled; a device without volume control is reported by name; otherwise the volume bar is shown last; the displayed volume is untouched |
| Gestures.SwipeSendsTheStep | app/src/main/java/com/example/spotifyplayback/PlayerActivity.kt:784-790 | the only volume a swipe sends is the step of the shown volume |
| Gestures.SwipeVolumeSends | app/src/main/java/com/example/spotifyplayback/PlayerActivity.kt:827-831 | any volume a swipe sends is in 0..100, above the shown one going up and below it going down, and none is sent at 100 going up or 0 going down |
| Home.CheckClientId | app/src/main/java/com/example/spotifyplayback/HomeActivity.kt:213-228 | true exactly for 32 characters that are all letters or digits, not upper case and not spaces; false for any other length |
| Home.AsciiClientIds | app/src/main/java/com/example/spotifyplayback/HomeActivity.kt:220-224 | with ASCII-faithful tests every 32-character string of lower-case letters and digits is valid, and no string with an upper-case ASCII letter or a space is |
| Home.Submit | app/src/main/java/com/example/spotifyplayback/HomeActivity.kt:119-154 | the ID is stored and the player opened exactly when Spotify is installed and the ID is valid; an empty input asks for an ID, a missing app shows the install dialog, an invalid ID is reported, and the stored value is unchanged in all three |
| Home.SubmitStoresValidIds | app/src/main/java/com/example/spotifyplayback/HomeActivity.kt:134-143 | after a successful submit the stored client ID is a valid one, and the next start with Spotify installed opens the player |
| Home.Open | app/src/main/java/com/example/spotifyplayback/HomeActivity.kt:47-95 | with a stored ID: the player when Spotify is installed, otherwise a dialog that cannot be dismissed, and the settings kept; without one: the home page, with a dismissible install dialog exactly when Spotify is missing, and the player then reads the first-start defaults |
| Home.InitAppSettings | app/src/main/java/com/example/spotifyplayback/HomeActivity.kt:187-203 | writes exactly the ten settings keys (theme 0 among them) and keeps every other key |
| Home.LoadSettings | app/src/main/java/com/example/spotifyplayback/PlayerActivity.kt:225-233 | an empty settings file gives the player's fallbacks |
| Home.InitSettingsRead | app/src/main/java/com/example/spotifyplayback/HomeActivity.kt:190-202 | after the first-start initialisation the player reads the written defaults whatever the file held |
| Home.FallbacksDifferFromDefaults | app/src/main/java/com/example/spotifyplayback/PlayerActivity.kt:227 | the player's fallbacks differ from the first-start defaults: display time 5 instead of 10 |

## Left out

- HTTP request building and sending (OkHttp) are not modelled. Each response is an input: a failure or a body with its parsed form. Requests are effects (`Player.SendLike`, `Player.FetchTrack`, ...).
- Text-level JSON parsing by `org.json` is not modelled. Documents are an abstract tree of integers, strings, booleans, arrays and objects. Floating-point numbers are left out.
- `Json.OptLong`: numbers are taken to be in the 64-bit range. A text member is read only as a decimal integer (an optional sign and digits), exactly and then saturated. `org.json` goes through `Double.parseDouble`, so it also accepts texts such as "1.5", " 7" or "1e3", and it rounds integer texts beyond 2^53.
- `Json.OptInt`: the same two gaps as `Json.OptLong`. In addition, `org.json` keeps a number literal beyond the 64-bit range as a `Double`, which `optInt` saturates, while the model wraps it modulo 2^32 (2^64 + 5 gives 2147483647 on the device and 5 here).
- `Json.ToText`: a number literal beyond the 64-bit range is printed as its digits here, where `org.json` prints the `Double` it keeps.
- `Polling.Poll`: the `JSONException` that `JSONObject(text)` throws on malformed text is not modelled, because parsing is outside the model.
- The Spotify authentication flow, the app-remote connection and the ActivityResult launcher are foreign calls. They are reduced to the effects `StartAuthentication` and `NoInternetDialog`.
- `isInternetAvailable` asks the platform's connectivity service. Its answer is the `available` parameter.
- The artist, like-status and player-state API helpers each check connectivity before they send. Those checks are not modelled for the two side requests, whose outcome is the `Response` input.
- Handlers, timers, coroutines and their timing are not modelled: the poll interval, the controls and volume-bar timers, and the 750 ms delay before a confirmed seek releases the bar. `Player.SchedulePoll` and `Player.ShowVolumeBar` stand for them.
- The progress-bar percentage (line 1984) uses `Double` division and a float-to-int conversion, so it is left out.
- Image loading (Glide, Picasso), blur transforms, animations and visibility changes are left out. Of the swipe animation only the flag it sets is modelled (`Gestures.SwipeSkip`).
- `Gestures.SwipeSkip`: the swipe flag is set at once. The device sets it when the animation starts, so a poll answered before that sees it clear.
- `Commands.SkipConfirmed`: the refetch after a successful skip (line 1233) is the effect `FetchTrack`. Its outcome is a poll (`Polling.Poll`).
- `Format.Pad2`: digits are ASCII. `String.format` uses the default locale, which can write other digits.
- `Basics.EqualsIgnoreCase`: case folding is ASCII only. Java also folds other letters, so a text such as "falſe" (with a long s) reads as false on the device and as not boolean in the model.
- `Json.OptString`: an array or object member reads as "" here. `org.json` returns its JSON text instead. `Json.ToText` has the same gap. The app reads only string members this way.
- `Player.NewTrack`: it builds the artist line with the corrected join (`Format.JoinArtists`). For artists named A, B, A it shows "A, B, A" where the code shows "AB, A" (`Format.JoinArtistsAsWritten`).
- `Player.TrackRefresh`: it goes through `Player.NewTrack`, so it differs from the code on the same input: artists named A, B, A.
- `Player.Reconcile`: it uses the corrected `Player.NewTrack` and `Player.ShuffleRefresh`. It differs from the code on artists named A, B, A, and on a snapshot reporting shuffle off after smart shuffle or disallowed after allowed (`Player.ShuffleRefreshAsWritten`).
- `Polling.Poll`: it reconciles through `Player.Reconcile`, so it differs from the code on the same inputs.
- `Commands.ShuffleConfirmed`: it uses the corrected setter. A confirmed shuffle-off request after smart shuffle clears the smart flag here and keeps it in the code (`Commands.ShuffleConfirmedAsWritten`).
- `Commands.DoubleTap`: it uses the corrected like request. An offline double tap on an unliked track leaves the pending mark alone here and sets it in the code (`Commands.DoubleTapAsWritten`).
- The single-tap toggle of the controls and the long press are pure UI.
- `CacheManager.kt`, `DialogUtil.kt`, `ToastUtil.kt`, `SettingsManager.kt` and `SettingsActivity.kt` are not part of this model. They are file-system, dialog, toast and preference-widget code with no logic of their own.
- `Home.LoadSettings`: a stored value of the wrong type makes Android's preference getters throw. The model reads it as missing, because the app only ever writes each key with one type.
- `Home.CheckClientId`: `Char.isLetterOrDigit` and `Char.isUpperCase` cover all of Unicode and are parameters, tied to ASCII by `Home.AgreesWithAscii`. Kotlin strings count UTF-16 code units while Dafny strings count Unicode scalar values, so the two lengths differ on characters outside the Basic Multilingual Plane.
- `Gestures.Fling`: coordinates are integers rather than the platform's floats. A missing first event (`event1!!`) would throw and is not modelled.
- `Gestures.SwipeVolume`: the shake animation of the cover is left out.
- `Format.SeekPosition`: the bounds are stated only where the product of bar position and duration fits a `long`. Outside that range the result wraps, and only the wrapped value is modelled.
- `Responses.ArtistResponseAsWritten`: states only the throw on an empty body. For every other body it is `Responses.ArtistResponse`, which carries the full contract.
- `Responses.LikeResponseAsWritten`: states only the throw on an empty body. For every other body it is `Responses.LikeResponse`.
- `Responses.ExtractLikeStatus`: the error-object branch is modelled, but a body that passes the gate never reaches it (`Responses.GatedLikeErrorsAreRateLimits`).
- The rate-limit text is modelled with the missing space ("with thesame client ID"), exactly as the string concatenation on lines 2939-2940 produces it.

## Findings

| source | as written | input that shows it | evidently intended | confidence | as-written member | corrected member |
|---|---|---|---|---|---|---|
| app/src/main/java/com/example/spotifyplayback/PlayerActivity.kt:1887-1897 | the ", " separator is skipped after every artist whose NAME equals the last artist's name | artists named A, B, A give "AB, A" | skip the separator only after the last position: "A, B, A" | high, not executed | Format.JoinArtistsAsWritten, Format.DuplicateLastNameDropsComma, Format.AsWrittenAgreesIffLastUnique | Format.JoinArtists, Format.Joined |
| app/src/main/java/com/example/spotifyplayback/PlayerActivity.kt:2818 | `(response as String).first()` (here and on line 2900) throws on the empty string that the API helpers return for an empty or missing body (lines 1596 and 1633); the exception is not caught | a like-status or artist response with no body | treat an empty body like any other body that does not start with the bracket, as `extractArtistImage` and `extractLikeStatus` already do | medium, not executed | Responses.GateAsWritten, Responses.EmptyBodyCrashesGate, Responses.ArtistResponseAsWritten, Responses.LikeResponseAsWritten | Responses.Gate, Responses.ArtistResponse, Responses.LikeResponse |
| app/src/main/java/com/example/spotifyplayback/PlayerActivity.kt:2168-2204 | `handleShuffleStatus` does not store what it shows: shuffle off keeps the old smart-shuffle flag, and "disallowed" keeps the old permission, so the difference test on lines 1944-1946 fires on every poll | stored (on, smart, allowed) and a snapshot reporting shuffle off, no smart shuffle; or stored allowed and a snapshot reporting disallowed | record the reported permission and clear smart shuffle with shuffle | high, not executed | Player.ShuffleStatusAsWritten, Player.ShuffleRefreshAsWritten, Player.ShuffleAsWrittenNeverSettles, Commands.ShuffleConfirmedAsWritten | Player.ShuffleStatus, Player.ShuffleRefresh, Player.ShuffleSettles, Commands.ShuffleConfirmed |
| app/src/main/java/com/example/spotifyplayback/PlayerActivity.kt:469-478 | the like button (and the double tap, lines 684-691) marks a like request pending even when `sendLikeRequest` returned early offline (lines 1338-1342), and a failed request (lines 1390-1408) never clears the mark; the throttle (lines 1934-1940) then never queries the like status again | a like click while offline, followed by any number of polls | mark the request pending only when it was sent, and clear the mark on failure too | high, not executed | Commands.LikeButtonAsWritten, Commands.LikeConfirmedAsWritten, Commands.OfflineLikeSendsNothingAsWritten, Commands.OfflineLikeBlocksQueriesAsWritten, Commands.DoubleTapAsWritten, Commands.OfflineDoubleTapAsWritten | Commands.RequestLike, Commands.LikeButton, Commands.LikeConfirmed, Commands.LikeQueriesResume, Commands.DoubleTap, Commands.DoubleTapNeverUnlikes |

=== FILE: basics.dfy ===
/** Small building blocks shared by the rest of the model: an optional value,
    the JVM's fixed-width integer conversions and truncating division, and
    the decimal text form of integers that Kotlin's `toString`, `toLong` and
    `String.format("%02d")` use. */
module Basics {

  /** Kotlin's nullable values (`String?`, `Int?`, `Boolean?`). */
  datatype Option<+T> = None | Some(value: T) {
    function GetOr(default: T): T {
      match this
      case Some(v) => v
      case None => default
    }
  }

  const TWO_32: int := 0x1_0000_0000
  const TWO_64: int := 0x1_0000_0000_0000_0000
  const INT_MIN: int := -0x8000_0000
  const INT_MAX: int := 0x7fff_ffff
  const LONG_MIN: int := -0x8000_0000_0000_0000
  const LONG_MAX: int := 0x7fff_ffff_ffff_ffff

  /** `Long.intValue()`: keep the low 32 bits, read them as two's complement. */
  function ToInt32(n: int): (r: int)
    ensures INT_MIN <= r <= INT_MAX
    ensures (r - n) % TWO_32 == 0
    ensures INT_MIN <= n <= INT_MAX ==> r == n
  {
    var low := n % TWO_32;
    if low > INT_MAX then low - TWO_32 else low
  }

  /** A JVM `long` multiplication or addition result: wrap to 64 bits. */
  function ToInt64(n: int): (r: int)
    ensures LONG_MIN <= r <= LONG_MAX
    ensures (r - n) % TWO_64 == 0
    ensures LONG_MIN <= n <= LONG_MAX ==> r == n
  {
    var low := n % TWO_64;
    if low > LONG_MAX then low - TWO_64 else low
  }

  /** The narrowing `(int) d` cast of a double: values out of range saturate. */
  function SaturateInt32(n: int): (r: int)
    ensures INT_MIN <= r <= INT_MAX
    ensures INT_MIN <= n <= INT_MAX ==> r == n
    ensures n > INT_MAX ==> r == INT_MAX
    ensures n < INT_MIN ==> r == INT_MIN
  {
    if n > INT_MAX then INT_MAX else if n < INT_MIN then INT_MIN else n
  }

  /** The narrowing `(long) d` cast of a double. */
  function SaturateInt64(n: int): (r: int)
    ensures LONG_MIN <= r <= LONG_MAX
    ensures LONG_MIN <= n <= LONG_MAX ==> r == n
  {
    if n > LONG_MAX then LONG_MAX else if n < LONG_MIN then LONG_MIN else n
  }

  /** Kotlin/Java integer division, which truncates toward zero. */
  function JavaDiv(a: int, b: int): (q: int)
    requires b > 0
    ensures a >= 0 ==> q == a / b
    ensures a <= 0 ==> q == -((-a) / b)
  {
    if a >= 0 then a / b else -((-a) / b)
  }

  /** Kotlin/Java `%`, whose sign follows the dividend. */
  function JavaRem(a: int, b: int): (m: int)
    requires b > 0
    ensures a == b * JavaDiv(a, b) + m
    ensures a >= 0 ==> 0 <= m < b
    ensures a < 0 ==> -b < m <= 0
  {
    a - b * JavaDiv(a, b)
  }

  predicate IsDigit(c: char) {
    '0' <= c <= '9'
  }

  predicate AllDigits(s: string) {
    forall i :: 0 <= i < |s| ==> IsDigit(s[i])
  }

  function DigitChar(d: int): (c: char)
    requires 0 <= d < 10
    ensures IsDigit(c)
  {
    ['0', '1', '2', '3', '4', '5', '6', '7', '8', '9'][d]
  }

  function DigitValue(c: char): (d: int)
    requires IsDigit(c)
    ensures 0 <= d < 10
  {
    c as int - '0' as int
  }

  /** Decimal digits of a natural number, most significant first, no leading zeros. */
  function NatToString(n: nat): (s: string)
    ensures |s| > 0
    ensures AllDigits(s)
    ensures n < 10 <==> |s| == 1
    decreases n
  {
    if n < 10 then [DigitChar(n)] else NatToString(n / 10) + [DigitChar(n % 10)]
  }

  /** `Long.toString()`. */
  function IntToString(n: int): (s: string)
    ensures |s| > 0
    ensures n >= 0 ==> AllDigits(s)
    ensures n < 0 ==> s[0] == '-' && AllDigits(s[1..])
  {
    if n >= 0 then NatToString(n) else "-" + NatToString(-n)
  }

  /** The value of a string of decimal digits (read from the last digit back). */
  function DigitsValue(s: string): (n: nat)
    requires AllDigits(s)
    decreases |s|
  {
    if |s| == 0 then 0 else 10 * DigitsValue(s[..|s| - 1]) + DigitValue(s[|s| - 1])
  }

  /** An optional `+` or `-` followed by at least one ASCII digit, read as an
      integer: the strings `String.toLong()` accepts (its 64-bit range check
      is applied by the caller). */
  function ParseInt(s: string): (r: Option<int>)
    ensures r.Some? ==> |s| > 0
    ensures |s| > 0 && AllDigits(s) ==> r == Some(DigitsValue(s))
  {
    if |s| > 1 && (s[0] == '-' || s[0] == '+') && AllDigits(s[1..]) then
      var magnitude: int := DigitsValue(s[1..]);
      Some(if s[0] == '-' then -magnitude else magnitude)
    else if |s| > 0 && AllDigits(s) then
      Some(DigitsValue(s))
    else
      None
  }

  lemma {:induction false} NatToStringRoundTrip(n: nat)
    ensures DigitsValue(NatToString(n)) == n
    decreases n
  {
    if n >= 10 {
      NatToStringRoundTrip(n / 10);
      var s := NatToString(n);
      assert s[..|s| - 1] == NatToString(n / 10);
      assert DigitValue(s[|s| - 1]) == n % 10 by {
        assert s[|s| - 1] == DigitChar(n % 10);
      }
    } else {
      assert DigitValue(DigitChar(n)) == n;
    }
  }

  /** Printing an integer and reading it back yields the same integer. */
  lemma IntToStringRoundTrip(n: int)
    ensures ParseInt(IntToString(n)) == Some(n)
  {
    if n >= 0 {
      NatToStringRoundTrip(n);
      var s := NatToString(n);
      assert IntToString(n) == s;
      if |s| > 1 {
        assert IsDigit(s[0]);
      }
    } else {
      NatToStringRoundTrip(-n);
      var t := NatToString(-n);
      var s := "-" + t;
      assert IntToString(n) == s;
      assert s[1..] == t;
      assert |s| > 1 && s[0] == '-' && AllDigits(s[1..]);
    }
  }

  /** ASCII lower-casing, the part of `equalsIgnoreCase` the model covers. */
  function AsciiLower(c: char): (r: char)
    ensures 'A' <= c <= 'Z' ==> r != c && 'a' <= r <= 'z'
    ensures !('A' <= c <= 'Z') ==> r == c
  {
    if 'A' <= c <= 'Z' then (c as int + 32) as char else c
  }

  predicate EqualsIgnoreCase(a: string, b: string) {
    |a| == |b| && forall i :: 0 <= i < |a| ==> AsciiLower(a[i]) == AsciiLower(b[i])
  }

  /** `CharSequence.contains`: `needle` occurs as a contiguous piece of `hay`. */
  predicate Contains(hay: string, needle: string) {
    exists i :: 0 <= i <= |hay| - |needle| && OccursAt(hay, needle, i)
  }

  predicate OccursAt(hay: string, needle: string, i: int)
    requires 0 <= i <= |hay| - |needle|
  {
    hay[i..i + |needle|] == needle
  }
}

=== FILE: commands.dfy ===
/** The user's commands on the player screen and the confirmations of the
    requests they send: the like button and the double tap, the seek bar,
    and the successful play/pause, volume and shuffle requests.  A
    confirmation marks its field as changed by the user, which the next
    reconciliation honours by skipping that field once. */
module Commands {
  import opened Basics
  import opened Extract
  import opened Format
  import opened Player
  import opened Connectivity

  /* -------------------------------- requests ------------------------------- */

  /** The effects that are requests to the streaming service. */
  predicate IsRequest(e: Effect) {
    e.SendLike? || e.SendVolume? || e.SendSeek? || e.SendPlayback? || e.SendSkip? || e.SendShuffle?
  }

  /** A request of the player screen (`send*Request`): the connectivity check
      first, and the request only when it passes. */
  function SendRequest(s: Screen, request: Effect, available: bool): (r: Step<Screen>)
    requires IsRequest(request)
    ensures r.value == s.(connection := s.connection.(isInternet := available))
    ensures Count(r.effects, request) == (if available then 1 else 0)
    ensures Count(r.effects, ShowMessage(NoInternet)) == (if s.connection.isInternet && !available then 1 else 0)
  {
    var net := CheckInternet(s.connection, available);
    var sent := if available then [request] else [];
    CountAppend(net.effects, sent, request);
    CountAppend(net.effects, sent, ShowMessage(NoInternet));
    CountAbsent(net.effects, request);
    Step(s.(connection := net.value), net.effects + sent)
  }

  /** The play/pause button asks for the opposite of the shown state. */
  function PlayPauseButton(s: Screen, available: bool): (r: Step<Screen>)
    ensures Count(r.effects, SendPlayback(!s.playback.isPlaying)) == (if available then 1 else 0)
    ensures r.value.playback == s.playback
  {
    SendRequest(s, SendPlayback(!s.playback.isPlaying), available)
  }

  /** The skip buttons ask for the next or the previous track. */
  function SkipButton(s: Screen, next: bool, available: bool): (r: Step<Screen>)
    ensures Count(r.effects, SendSkip(next)) == (if available then 1 else 0)
    ensures Count(r.effects, SendSkip(!next)) == 0
    ensures r.value == s.(connection := s.connection.(isInternet := available))
  {
    SendRequest(s, SendSkip(next), available)
  }

  /** The shuffle button: where shuffling is allowed it asks for the opposite
      of the shown state, elsewhere it only says that shuffling is not
      available. */
  function ShuffleButton(s: Screen, available: bool): (r: Step<Screen>)
    ensures !s.shuffle.isShuffleAllowed ==> r == Step(s, [Toast("Shuffle is not available for this playlist")])
    ensures s.shuffle.isShuffleAllowed ==> Count(r.effects, SendShuffle(!s.shuffle.isShuffle)) == (if available then 1 else 0)
    ensures Count(r.effects, SendShuffle(s.shuffle.isShuffle)) == 0
  {
    if s.shuffle.isShuffleAllowed then SendRequest(s, SendShuffle(!s.shuffle.isShuffle), available)
    else Step(s, [Toast("Shuffle is not available for this playlist")])
  }

  /* --------------------------------- like --------------------------------- */

  /** The like button as written: with a track shown, the like request is
      attempted (it only goes out when the connectivity check passes), the
      button flips, and the like request is marked pending even when nothing
      was sent. */
  function LikeButtonAsWritten(s: Screen, available: bool): (r: Step<Screen>)
    ensures s.track.trackId.None? ==> r == Step(s, [])
    ensures s.track.trackId.Some? ==> r.value.like == LikeView(!s.like.isLiked, true, s.like.isLikeTaskRunning)
  {
    match s.track.trackId
    case None => Step(s, [])
    case Some(id) =>
      var sent := LikeRequest(s.connection, id, !s.like.isLiked, available);
      Step(s.(connection := sent.value, like := LikeView(!s.like.isLiked, true, s.like.isLikeTaskRunning)), sent.effects)
  }

  /** Sending a like or unlike request and showing its outcome ahead of the
      confirmation; the request is pending only when it went out. */
  function RequestLike(s: Screen, id: string, like: bool, available: bool): (r: Step<Screen>)
    ensures r.value.like == LikeView(like, s.like.isLikeRequestSent || available, s.like.isLikeTaskRunning)
    ensures r.value.connection.isInternet == available
    ensures r.value == s.(connection := r.value.connection, like := r.value.like)
    ensures |r.effects| > 0 && r.effects[|r.effects| - 1] == ShowLike(like)
    ensures available <==> |r.effects| >= 2 && r.effects[|r.effects| - 2] == SendLike(id, like)
    // The opposite request is never sent.
    ensures Count(r.effects, SendLike(id, !like)) == 0
  {
    var sent := LikeRequest(s.connection, id, like, available);
    Step(s.(connection := sent.value, like := LikeView(like, s.like.isLikeRequestSent || available, s.like.isLikeTaskRunning)),
         sent.effects)
  }

  /** The effects of a like or unlike click (`sendLikeRequest`, which checks
      the connectivity first, then `handleLikeStatus`): the request only when
      the check passes, then the new state shown. */
  function LikeRequest(c: Connection, id: string, like: bool, available: bool): (r: Step<Connection>)
    ensures r.value == c.(isInternet := available)
    ensures |r.effects| > 0 && r.effects[|r.effects| - 1] == ShowLike(like)
    ensures available <==> |r.effects| >= 2 && r.effects[|r.effects| - 2] == SendLike(id, like)
    ensures Count(r.effects, SendLike(id, !like)) == 0
  {
    var net := CheckInternet(c, available);
    var request := if available then [SendLike(id, like)] else [];
    CountAbsent(net.effects, SendLike(id, !like));
    CountAbsent(request, SendLike(id, !like));
    CountAbsent([ShowLike(like)], SendLike(id, !like));
    CountAppend(net.effects, request, SendLike(id, !like));
    CountAppend(net.effects + request, [ShowLike(like)], SendLike(id, !like));
    Step(net.value, net.effects + request + [ShowLike(like)])
  }


  /** The like button: with a track shown, the opposite of the shown state is
      requested. */
  function LikeButton(s: Screen, available: bool): (r: Step<Screen>)
    ensures s.track.trackId.None? ==> r == Step(s, [])
    ensures s.track.trackId.Some? ==> r == RequestLike(s, s.track.trackId.value, !s.like.isLiked, available)
    ensures s.track.trackId.Some? ==> r.value.like.isLiked != s.like.isLiked
  {
    match s.track.trackId
    case None => Step(s, [])
    case Some(id) => RequestLike(s, id, !s.like.isLiked, available)
  }

  /** The double tap (when enabled in the settings): with a track playing,
      like it if it is not liked yet, and show the heart either way. */
  function DoubleTap(s: Screen, doubleTapEnabled: bool, available: bool): (r: Step<Screen>)
    // It never unlikes: a liked track stays liked and the like state is untouched.
    ensures s.like.isLiked ==> r.value.like == s.like
    ensures r.value.like.isLiked == (s.like.isLiked || (s.track.trackId.Some? && doubleTapEnabled && !s.connection.noTrack))
  {
    if s.track.trackId.Some? && doubleTapEnabled && !s.connection.noTrack then
      if !s.like.isLiked then
        var liked := RequestLike(s, s.track.trackId.value, true, available);
        Step(liked.value, liked.effects + [ShowHeart])
      else Step(s, [ShowHeart])
    else Step(s, [])
  }

  /** A double tap never sends an unlike request for the shown track. */
  lemma DoubleTapNeverUnlikes(s: Screen, doubleTapEnabled: bool, available: bool)
    requires s.track.trackId.Some?
    ensures Count(DoubleTap(s, doubleTapEnabled, available).effects, SendLike(s.track.trackId.value, false)) == 0
  {
    var x := SendLike(s.track.trackId.value, false);
    if doubleTapEnabled && !s.connection.noTrack && !s.like.isLiked {
      var liked := RequestLike(s, s.track.trackId.value, true, available);
      assert DoubleTap(s, doubleTapEnabled, available).effects == liked.effects + [ShowHeart];
      CountAppend(liked.effects, [ShowHeart], x);
    }
  }


  /** The double tap as written: the like goes through the like click as
      written, so a like request is marked pending even when the
      connectivity check failed and nothing was sent. */
  function DoubleTapAsWritten(s: Screen, doubleTapEnabled: bool, available: bool): (r: Step<Screen>)
    ensures !(s.track.trackId.Some? && doubleTapEnabled && !s.connection.noTrack) ==> r == Step(s, [])
    ensures s.like.isLiked ==> r.value.like == s.like
    ensures s.track.trackId.Some? && doubleTapEnabled && !s.connection.noTrack && !s.like.isLiked ==>
      r.value.like == LikeView(true, true, s.like.isLikeTaskRunning)
    // The shown like state is the corrected double tap's.
    ensures r.value.like.isLiked == DoubleTap(s, doubleTapEnabled, available).value.like.isLiked
  {
    if s.track.trackId.Some? && doubleTapEnabled && !s.connection.noTrack then
      if !s.like.isLiked then
        var clicked := LikeButtonAsWritten(s, available);
        Step(clicked.value, clicked.effects + [ShowHeart])
      else Step(s, [ShowHeart])
    else Step(s, [])
  }

  /** As written, an offline double tap on a track not yet liked sends no
      like request yet leaves one pending; the corrected double tap leaves
      the pending mark as it was. */
  lemma OfflineDoubleTapAsWritten(s: Screen)
    requires s.track.trackId.Some? && !s.connection.noTrack && !s.like.isLiked
    ensures var tapped := DoubleTapAsWritten(s, true, false);
            && Count(tapped.effects, SendLike(s.track.trackId.value, true)) == 0
            && tapped.value.like.isLikeRequestSent
    ensures DoubleTap(s, true, false).value.like.isLikeRequestSent == s.like.isLikeRequestSent
  {
    var id := s.track.trackId.value;
    var clicked := LikeButtonAsWritten(s, false);
    OfflineLikeRequestSendsNothing(s.connection, id, true);
    assert clicked.effects == LikeRequest(s.connection, id, true, false).effects;
    assert DoubleTapAsWritten(s, true, false).effects == clicked.effects + [ShowHeart];
    CountAppend(clicked.effects, [ShowHeart], SendLike(id, true));

  }

  /** The outcome of a like request as written.  A success clears the
      pending mark, then redraws and reports the like state shown when the
      response arrives (`handleLikeStatus(isLiked)`).  A failure is only
      reported. */
  function LikeConfirmedAsWritten(s: Screen, success: bool): (r: Step<Screen>)
    ensures success ==> r.value == s.(like := s.like.(isLikeRequestSent := false))
    ensures success ==> r.effects == [ShowLike(s.like.isLiked), Toast(if s.like.isLiked then "Track liked" else "Track unliked")]
    ensures !success ==> r == Step(s, [Toast("Error while sending like request")])
  {
    if success then
      Step(s.(like := LikeStatus(s.like, s.like.isLiked).(isLikeRequestSent := false)),
           [ShowLike(s.like.isLiked), Toast(if s.like.isLiked then "Track liked" else "Track unliked")])
    else Step(s, [Toast("Error while sending like request")])
  }

  /** The outcome of a like request with the pending mark cleared either
      way, so that the like-status queries resume. */
  function LikeConfirmed(s: Screen, success: bool): (r: Step<Screen>)
    ensures r.value == s.(like := s.like.(isLikeRequestSent := false))
    ensures success ==> r == LikeConfirmedAsWritten(s, success)
    ensures !success ==> r.effects == LikeConfirmedAsWritten(s, success).effects
  {
    if success then LikeConfirmedAsWritten(s, success)
    else Step(s.(like := s.like.(isLikeRequestSent := false)), [Toast("Error while sending like request")])
  }

  /** While a like request is pending no reconciliation queries the like
      status, and the request stays pending. */
  lemma PendingLikeBlocksQueries(s: Screen, t: TrackInfo, hasImage: bool)
    requires s.like.isLikeRequestSent
    requires t.id != "" && t.title != ""
    requires Reconcile(s, t, hasImage).Reacted?
    ensures Count(Reconcile(s, t, hasImage).effects, FetchLikeStatus(t.id)) == 0
    ensures Reconcile(s, t, hasImage).screen.like.isLikeRequestSent
  {
    ReconcileLikeQuery(s, t, hasImage);
    ReconcileMerges(s, t, hasImage);
  }

  /** As written, a like click while offline sends nothing but leaves a like
      request pending that no response will ever clear, so no reconciliation
      queries the like status again. */
  lemma OfflineLikeBlocksQueriesAsWritten(s: Screen, t: TrackInfo, hasImage: bool)
    requires s.track.trackId.Some?
    requires t.id != "" && t.title != ""
    requires Reconcile(LikeButtonAsWritten(s, false).value, t, hasImage).Reacted?
    ensures var clicked := LikeButtonAsWritten(s, false);
            && Count(clicked.effects, SendLike(s.track.trackId.value, !s.like.isLiked)) == 0
            && clicked.value.like.isLikeRequestSent
            && Count(Reconcile(clicked.value, t, hasImage).effects, FetchLikeStatus(t.id)) == 0
            && Reconcile(clicked.value, t, hasImage).screen.like.isLikeRequestSent
  {
    OfflineLikeSendsNothingAsWritten(s);
    PendingLikeBlocksQueries(LikeButtonAsWritten(s, false).value, t, hasImage);
  }

  /** As written, a like click while offline sends no like request yet marks
      one pending. */
  lemma OfflineLikeSendsNothingAsWritten(s: Screen)
    requires s.track.trackId.Some?
    ensures Count(LikeButtonAsWritten(s, false).effects, SendLike(s.track.trackId.value, !s.like.isLiked)) == 0
    ensures LikeButtonAsWritten(s, false).value.like.isLikeRequestSent
  {
    OfflineLikeRequestSendsNothing(s.connection, s.track.trackId.value, !s.like.isLiked);
  }

  /** Offline, a like click's effects hold no like request. */
  lemma OfflineLikeRequestSendsNothing(c: Connection, id: string, like: bool)
    ensures Count(LikeRequest(c, id, like, false).effects, SendLike(id, like)) == 0
  {
    var net := CheckInternet(c, false);
    assert LikeRequest(c, id, like, false).effects == net.effects + [ShowLike(like)];
    CountAbsent(net.effects + [ShowLike(like)], SendLike(id, like));
  }

  /** With the correction an offline click leaves the pending mark as it was,
      and any response clears it, after which the queries resume. */
  lemma LikeQueriesResume(s: Screen, success: bool, t: TrackInfo, hasImage: bool)
    requires t.id != "" && t.title != "" && t.isSameTrack
    ensures LikeButton(s, false).value.like.isLikeRequestSent == s.like.isLikeRequestSent
    ensures var r1 := Reconcile(LikeConfirmed(s, success).value, t, hasImage);
            && r1.Reacted?
            && var r2 := Reconcile(r1.screen, t, hasImage);
               && r2.Reacted?
               && Count(r1.effects, FetchLikeStatus(t.id)) + Count(r2.effects, FetchLikeStatus(t.id)) == 1
  {
    LikeQueryEveryOtherPoll(LikeConfirmed(s, success).value, t, hasImage);
  }

  /* ----------------------------- confirmations ---------------------------- */

  /** The outcome of a play/pause request: on success the button shows the
      requested state, which the next reconciliation keeps; a failure is
      only reported. */
  function PlaybackConfirmed(s: Screen, play: bool, success: bool): (r: Step<Screen>)
    ensures success ==> r.value == s.(playback := PlaybackView(play, true))
    ensures success ==> r.effects == [ShowPlayButton(play)]
    ensures !success ==> r == Step(s, [Toast("Error while sending play/pause request")])
  {
    if success then
      Step(s.(playback := PlayButton(s.playback, play).(isPlaybackChanged := true)), [ShowPlayButton(play)])
    else Step(s, [Toast("Error while sending play/pause request")])
  }

  /** The outcome of a skip request: on success the player state is fetched
      again at once; a failure is only reported. */
  function SkipConfirmed(s: Screen, success: bool): (r: Step<Screen>)
    ensures r.value == s
    ensures success ==> r.effects == [FetchTrack]
    ensures !success ==> r.effects == [Toast("Error while sending skip request")]
  {
    Step(s, if success then [FetchTrack] else [Toast("Error while sending skip request")])
  }

  /** The outcome of a volume request: on success the requested volume is
      shown, volume control is known to be supported, and the next
      reconciliation keeps them; a failure is only reported. */
  function VolumeConfirmed(s: Screen, percent: int, success: bool): (r: Step<Screen>)
    ensures success ==> r.value == s.(volume := VolumeView(percent, true, true))
    ensures success ==> r.effects == [ShowVolume(percent)]
    ensures !success ==> r == Step(s, [Toast("Error while sending volume request")])
  {
    if success then
      Step(s.(volume := Volume(s.volume.(percentVolume := percent), Some(percent), Some(true)).(isVolumeChanged := true)),
           [ShowVolume(percent)])
    else Step(s, [Toast("Error while sending volume request")])
  }

  /** The outcome of a shuffle request as written, through the setter as
      written: turning shuffle off keeps the stored smart-shuffle flag
      although smart shuffle is shown off.  A failure is only reported. */
  function ShuffleConfirmedAsWritten(s: Screen, on: bool, success: bool): (r: Step<Screen>)
    ensures success ==> r.value == s.(shuffle := ShuffleView(on, if on then false else s.shuffle.isSmartShuffle, true))
    ensures success ==> r.effects == [ShowShuffle(on, false, true)]
    ensures !success ==> r == Step(s, [Toast("Error while sending shuffle request")])
    // It stores what it shows exactly when it agrees with the corrected confirmation.
    ensures r == ShuffleConfirmed(s, on, success) <==> !success || on || !s.shuffle.isSmartShuffle
  {
    if success then
      Step(s.(shuffle := ShuffleStatusAsWritten(s.shuffle.(isShuffle := on), on, false, true)), [ShowShuffle(on, false, true)])
    else Step(s, [Toast("Error while sending shuffle request")])
  }

  /** The outcome of a shuffle request: on success shuffle is shown on or
      off, smart shuffle off, and shuffling allowed; a failure is only
      reported. */
  function ShuffleConfirmed(s: Screen, on: bool, success: bool): (r: Step<Screen>)
    ensures success ==> r.value == s.(shuffle := ShuffleView(on, false, true))
    ensures success ==> r.effects == [ShowShuffle(on, false, true)]
    ensures !success ==> r == Step(s, [Toast("Error while sending shuffle request")])
  {
    if success then
      Step(s.(shuffle := ShuffleStatus(s.shuffle.(isShuffle := on), on, false, true)), [ShowShuffle(on, false, true)])
    else Step(s, [Toast("Error while sending shuffle request")])
  }

  /** A confirmed volume survives exactly one reconciliation of the same
      track: the next one keeps it whatever the snapshot reports, the one
      after takes the reported volume. */
  lemma ConfirmedVolumeSkipsOnePoll(s: Screen, percent: int, t: TrackInfo, hasImage: bool)
    requires t.id != "" && t.title != "" && t.isSameTrack && t.volume.Some?
    ensures var r1 := Reconcile(VolumeConfirmed(s, percent, true).value, t, hasImage);
            && r1.Reacted?
            && r1.screen.volume == VolumeView(percent, true, false)
            && var r2 := Reconcile(r1.screen, t, hasImage);
               && r2.Reacted?
               && r2.screen.volume.percentVolume == t.volume.value
  {
    var c := VolumeConfirmed(s, percent, true).value;
    ReconcileMerges(c, t, hasImage);
    var r1 := Reconcile(c, t, hasImage);
    ReconcileMerges(r1.screen, t, hasImage);
  }

  /* ----------------------------------- seek -------------------------------- */

  /** Touching the seek bar stops the progress refresh of the reconciler. */
  function SeekStarted(s: Screen): (r: Screen)
    ensures r == s.(isBarTouched := true)
    ensures forall t :: ProgressRefresh(r.isBarTouched, t) == []
  {
    s.(isBarTouched := true)
  }

  /** Releasing the seek bar at `progress` (0..1000) asks for the matching
      position of the track (`sendSeekToPosition`, behind the connectivity
      check); the bar counts as held until the request is confirmed. */
  function SeekReleased(s: Screen, progress: int, available: bool): (r: Step<Screen>)
    requires INT_MIN <= progress <= INT_MAX
    requires LONG_MIN <= s.track.totalDuration <= LONG_MAX
    ensures Count(r.effects, SendSeek(SeekPosition(progress, s.track.totalDuration))) == (if available then 1 else 0)
    ensures r.value.isBarTouched == s.isBarTouched && r.value.track == s.track
  {
    SendRequest(s, SendSeek(SeekPosition(progress, s.track.totalDuration)), available)
  }

  /** The outcome of a seek request: a success lets the reconciler refresh
      the progress again (after a short delay, which is not modelled); a
      failure is only reported, and the bar stays held. */
  function SeekConfirmed(s: Screen, success: bool): (r: Step<Screen>)
    ensures success ==> r == Step(s.(isBarTouched := false), [])
    ensures success ==> forall t :: ProgressRefresh(r.value.isBarTouched, t) == [ShowProgress(Clock(t.currentProgress))]
    ensures !success ==> r == Step(s, [Toast("Error while sending seek request")])
  {
    if success then Step(s.(isBarTouched := false), [])
    else Step(s, [Toast("Error while sending seek request")])
  }

  /** Only a successful seek releases the bar: after a release while
      offline (no request goes out) or a failed seek request the bar stays
      held, and the reconciler shows no progress, until a later seek
      succeeds. */
  lemma UnconfirmedSeekKeepsBarHeld(s: Screen, progress: int, t: TrackInfo, hasImage: bool)
    requires INT_MIN <= progress <= INT_MAX
    requires LONG_MIN <= s.track.totalDuration <= LONG_MAX
    requires s.isBarTouched
    ensures SeekReleased(s, progress, false).value.isBarTouched
    ensures Count(SeekReleased(s, progress, false).effects, SendSeek(SeekPosition(progress, s.track.totalDuration))) == 0
    ensures SeekConfirmed(s, false).value.isBarTouched
    ensures var r := Reconcile(s, t, hasImage);
            r.Reacted? ==> r.screen.isBarTouched && ProgressRefresh(r.screen.isBarTouched, t) == []
  {
  }

  /** `updateTimeProgress`: while the bar is held, the progress clock follows
      the bar and shows the position a release would seek to. */
  function TimeProgress(s: Screen, progress: int): (e: seq<Effect>)
    requires INT_MIN <= progress <= INT_MAX
    requires LONG_MIN <= s.track.totalDuration <= LONG_MAX
    ensures !s.isBarTouched ==> e == []
    ensures s.isBarTouched ==> e == [ShowProgress(Clock(SeekPosition(progress, s.track.totalDuration)))]
    // With the bar in range, the time shown reads back as a time within the track.
    ensures s.isBarTouched && 0 <= progress <= 1000 && 0 <= s.track.totalDuration < LONG_MAX / 1000 ==>
      var shown := ParseClock(e[0].text);
      shown.Some? && shown.value.0 * 60000 + shown.value.1 * 1000 <= s.track.totalDuration
  {
    if s.isBarTouched then
      var position := SeekPosition(progress, s.track.totalDuration);
      assert 0 <= position ==> var c := ParseClock(Clock(position));
                               c.Some? && c.value.0 * 60000 + c.value.1 * 1000 <= position by {
        if 0 <= position { ClockRoundTrip(position); }
      }
      [ShowProgress(Clock(position))]
    else []
  }
}

=== FILE: connectivity.dfy ===
/** The two edge-triggered full-screen messages of the player: "no internet"
    (`checkInternetConnectionTask`) and "no track playing" (`checkTrackState`).
    Each keeps one flag and shows or hides its message only when the observed
    state changes. */
module Connectivity {
  import opened Basics
  import opened Json
  import opened Player

  /** `checkInternetConnectionTask` given the availability the connectivity
      service reports; the task returns that availability, which the stored
      flag now holds. */
  function CheckInternet(c: Connection, available: bool): (r: Step<Connection>)
    ensures r.value == c.(isInternet := available)
    // The message is shown on a connected-to-disconnected change, hidden on
    // the opposite change, and left alone otherwise.
    ensures r.effects == if c.isInternet && !available then [ShowMessage(NoInternet)]
                         else if !c.isInternet && available then [HideMessage]
                         else []
    ensures Count(r.effects, ShowMessage(NoInternet)) == (if c.isInternet && !available then 1 else 0)
  {
    if !available then
      if c.isInternet then Step(c.(isInternet := false), [ShowMessage(NoInternet)]) else Step(c, [])
    else
      if !c.isInternet then Step(c.(isInternet := true), [HideMessage]) else Step(c, [])
  }

  /** Whether a player-state body describes a playing track: a non-empty text
      starting with `{` whose document has an `item` object. */
  predicate TrackPlaying(text: string, doc: Object) {
    |text| > 0 && text[0] == '{' && OptObject(doc, "item").Some?
  }

  /** `checkTrackState` on a response body and its parsed document (only
      consulted when the text starts with `{`); the check returns
      `TrackPlaying(text, doc)`, and the stored flag is its negation. */
  function CheckTrackState(c: Connection, text: string, doc: Object): (r: Step<Connection>)
    ensures r.value == c.(noTrack := !TrackPlaying(text, doc))
    ensures r.effects == [] <==> c.noTrack == !TrackPlaying(text, doc)
    ensures r.effects != [] ==> r.effects == [if TrackPlaying(text, doc) then HideMessage else ShowMessage(NoTrackPlaying)]
  {
    if |text| > 0 && text[0] == '{' then
      if OptObject(doc, "item").None? then
        if !c.noTrack then Step(c.(noTrack := true), [ShowMessage(NoTrackPlaying)]) else Step(c, [])
      else
        if c.noTrack then Step(c.(noTrack := false), [HideMessage]) else Step(c, [])
    else
      if !c.noTrack then Step(c.(noTrack := true), [ShowMessage(NoTrackPlaying)]) else Step(c, [])
  }

  /** A series of connectivity checks, one per sample, in order. */
  function CheckAll(c: Connection, samples: seq<bool>): (r: Step<Connection>)
    decreases |samples|
  {
    if |samples| == 0 then Step(c, [])
    else
      var first := CheckInternet(c, samples[0]);
      var rest := CheckAll(first.value, samples[1..]);
      Step(rest.value, first.effects + rest.effects)
  }

  /** The number of connected-to-disconnected transitions in a series of
      samples that starts from `connected`. */
  function Drops(connected: bool, samples: seq<bool>): nat
    decreases |samples|
  {
    if |samples| == 0 then 0
    else (if connected && !samples[0] then 1 else 0) + Drops(samples[0], samples[1..])
  }

  /** The number of disconnected-to-connected transitions likewise. */
  function Rises(connected: bool, samples: seq<bool>): nat
    decreases |samples|
  {
    if |samples| == 0 then 0
    else (if !connected && samples[0] then 1 else 0) + Rises(samples[0], samples[1..])
  }

  /** Over any series of checks the "no internet" message is shown once per
      connected-to-disconnected transition (so repeated failures show it
      once) and hidden once per disconnected-to-connected transition, and
      the flag ends at the last sample. */
  lemma {:induction false} CheckAllShowsOncePerDrop(c: Connection, samples: seq<bool>)
    ensures Count(CheckAll(c, samples).effects, ShowMessage(NoInternet)) == Drops(c.isInternet, samples)
    ensures Count(CheckAll(c, samples).effects, HideMessage) == Rises(c.isInternet, samples)
    ensures |samples| > 0 ==> CheckAll(c, samples).value.isInternet == samples[|samples| - 1]
    ensures CheckAll(c, samples).value.noTrack == c.noTrack
    decreases |samples|
  {
    if |samples| > 0 {
      var first := CheckInternet(c, samples[0]);
      CheckAllShowsOncePerDrop(first.value, samples[1..]);
      CountAppend(first.effects, CheckAll(first.value, samples[1..]).effects, ShowMessage(NoInternet));
      CountAppend(first.effects, CheckAll(first.value, samples[1..]).effects, HideMessage);
      if |samples| > 1 {
        assert samples[1..][|samples[1..]| - 1] == samples[|samples| - 1];
      }
    }
  }

  /** From a connected state, any number of failed checks in a row shows the
      message exactly once. */
  lemma {:induction false} RepeatedFailuresShowOnce(c: Connection, n: nat)
    requires c.isInternet && n > 0
    ensures Count(CheckAll(c, seq(n, _ => false)).effects, ShowMessage(NoInternet)) == 1
  {
    CheckAllShowsOncePerDrop(c, seq(n, _ => false));
    DropsOfFailures(n);
  }

  lemma {:induction false} DropsOfFailures(n: nat)
    requires n > 0
    ensures Drops(true, seq(n, _ => false)) == 1
    ensures Drops(false, seq(n, _ => false)) == 0
    decreases n
  {
    var s := seq(n, _ => false);
    if n > 1 {
      assert s[1..] == seq(n - 1, _ => false);
      DropsOfFailures(n - 1);
    } else {
      assert s[1..] == [];
    }
  }

  /** The same body checked twice in a row: the second check changes
      nothing and shows nothing. */
  lemma CheckTrackStateSettles(c: Connection, text: string, doc: Object)
    ensures var once := CheckTrackState(c, text, doc);
            CheckTrackState(once.value, text, doc) == Step(once.value, [])
  {
  }
}

=== FILE: extract.dfy ===
/** The track-state extractor: turns one player-state document of the
    streaming service into a `TrackInfo` snapshot, and keeps the two
    change detectors (`previousTrackId`, `previousTrackImage`) that tell
    whether the track and its cover image are the ones already seen. */
module Extract {
  import opened Basics
  import opened Json

  /** One entry of the item's artist list: (name, API reference). */
  datatype Artist = Artist(name: string, href: string)

  /** The normalized snapshot of one poll (the source's `TrackInfo`). */
  datatype TrackInfo = TrackInfo(
    id: string,
    isSameTrack: bool,
    isCurrentlyPlaying: bool,
    title: string,
    artists: seq<Artist>,
    durationMs: int,
    currentProgress: int,
    imageUrl: Option<string>,
    isSameImage: bool,
    isShuffle: bool,
    isSmartShuffle: bool,
    isShuffleAllowed: bool,
    volume: Option<int>,
    isSupportsVolume: Option<bool>,
    deviceName: Option<string>)

  /** The extractor's change detectors; both start out empty. */
  datatype Memory = Memory(previousTrackId: string, previousTrackImage: string)

  const InitialMemory: Memory := Memory("", "")

  /** The snapshot returned when the document has no `item` object. */
  const NoTrack: TrackInfo := TrackInfo(
    "", false, false, "", [], 0, 0, None, false, false, false, false, None, Some(false), None)

  /** Either a snapshot and the updated detectors, or the `JSONException`
      that `getJSONObject` throws on an artist or image entry that is not an
      object (uncaught in the source). */
  datatype Extraction = Extracted(info: TrackInfo, memory: Memory) | Malformed

  /** The artist entries, in order; `None` if one of them is not an object. */
  function ExtractArtists(items: seq<Json>): (r: Option<seq<Artist>>)
    ensures r.Some? <==> forall i :: 0 <= i < |items| ==> items[i].Obj?
    ensures r.Some? ==> |r.value| == |items|
    ensures r.Some? ==> forall i :: 0 <= i < |items| ==>
      r.value[i] == Artist(OptString(items[i].fields, "name"), OptString(items[i].fields, "href"))
  {
    if |items| == 0 then Some([])
    else if !items[0].Obj? then None
    else
      var first := Artist(OptString(items[0].fields, "name"), OptString(items[0].fields, "href"));
      match ExtractArtists(items[1..])
      case None => None
      case Some(rest) => Some([first] + rest)
  }

  /** `actions.disallows.toggling_shuffle`, read with the strict getters; any
      missing or ill-typed step of the path counts as "not disallowed". */
  function ShuffleToggleDisallowed(doc: Object): (r: bool)
    // Disallowed exactly when the whole path exists and its end reads as true.
    ensures r <==> && OptObject(doc, "actions").Some?
                   && OptObject(OptObject(doc, "actions").value, "disallows").Some?
                   && GetBoolean(OptObject(OptObject(doc, "actions").value, "disallows").value, "toggling_shuffle") == Some(true)
  {
    match GetObject(doc, "actions")
    case None => false
    case Some(actions) =>
      match GetObject(actions, "disallows")
      case None => false
      case Some(disallows) => GetBoolean(disallows, "toggling_shuffle").GetOr(false)
  }

  /** `album.images` of an item, when both steps are present. */
  function AlbumImages(item: Object): (r: Option<seq<Json>>)
    ensures r.Some? <==> OptObject(item, "album").Some? && OptArray(OptObject(item, "album").value, "images").Some?
  {
    match OptObject(item, "album")
    case None => None
    case Some(album) => OptArray(album, "images")
  }

  /** The artists of an item: none when the list is missing. */
  function ItemArtists(item: Object): (r: Option<seq<Artist>>)
    ensures OptArray(item, "artists").None? ==> r == Some([])
    ensures OptArray(item, "artists").Some? ==> r == ExtractArtists(OptArray(item, "artists").value)
  {
    match OptArray(item, "artists")
    case None => Some([])
    case Some(items) => ExtractArtists(items)
  }

  /** The URL of the first (largest) album image: `Some(None)` when the
      album or its image list is missing or empty, `None` for the exception
      of a first entry that is not an object. */
  function FirstImage(item: Object): (r: Option<Option<string>>)
    ensures r == Some(None) <==> AlbumImages(item).None? || |AlbumImages(item).value| == 0
    ensures r.None? <==> AlbumImages(item).Some? && |AlbumImages(item).value| > 0 && !AlbumImages(item).value[0].Obj?
    ensures r.Some? && r.value.Some? ==>
      && AlbumImages(item).Some? && |AlbumImages(item).value| > 0
      && r.value.value == OptString(AlbumImages(item).value[0].fields, "url")
  {
    match AlbumImages(item)
    case None => Some(None)
    case Some(images) =>
      if |images| == 0 then Some(None)
      else if images[0].Obj? then Some(Some(OptString(images[0].fields, "url")))
      else None
  }

  /** The extractor proper (`extractTrackInfo`). */
  function ExtractTrackInfo(doc: Object, mem: Memory): (r: Extraction)
    // No item: the sentinel snapshot, detectors untouched.
    ensures OptObject(doc, "item").None? ==> r == Extracted(NoTrack, mem)
    ensures r.Extracted? && OptObject(doc, "item").Some? ==>
      var info := r.info;
      var item := OptObject(doc, "item").value;
      && info.id == OptString(item, "id")
      && info.title == OptString(item, "name")
      // Same-track detection against the previous id, which is then replaced.
      && (info.isSameTrack <==> info.id == mem.previousTrackId)
      && r.memory.previousTrackId == info.id
      // Same-image detection against the previous first image URL.
      && (info.isSameImage <==> info.imageUrl.Some? && info.imageUrl.value == mem.previousTrackImage)
      && (info.imageUrl.Some? ==> r.memory.previousTrackImage == info.imageUrl.value)
      && (info.imageUrl.None? ==> r.memory.previousTrackImage == mem.previousTrackImage)
      // Shuffle is allowed unless the document says toggling it is disallowed.
      && (info.isShuffleAllowed <==> !ShuffleToggleDisallowed(doc))
      // Missing fields take the library defaults.
      && (("is_playing" !in doc) ==> !info.isCurrentlyPlaying)
      && (("progress_ms" !in doc) ==> info.currentProgress == 0)
      && (("duration_ms" !in item) ==> info.durationMs == 0)
      && (OptObject(doc, "device").None? ==>
            info.volume.None? && info.isSupportsVolume.None? && info.deviceName.None?)
    // Every other field is read from its member.
    ensures r.Extracted? && OptObject(doc, "item").Some? ==>
      var info := r.info;
      var item := OptObject(doc, "item").value;
      var device := OptObject(doc, "device");
      && Some(info.artists) == ItemArtists(item)
      && Some(info.imageUrl) == FirstImage(item)
      && info.isCurrentlyPlaying == OptBoolean(doc, "is_playing")
      && info.durationMs == OptLong(item, "duration_ms")
      && info.currentProgress == OptLong(doc, "progress_ms")
      && info.isShuffle == OptBoolean(doc, "shuffle_state")
      && info.isSmartShuffle == OptBoolean(doc, "smart_shuffle")
      && info.volume == (if device.Some? then Some(OptInt(device.value, "volume_percent")) else None)
      && info.isSupportsVolume == (if device.Some? then Some(OptBoolean(device.value, "supports_volume")) else None)
      && info.deviceName == (if device.Some? then Some(OptString(device.value, "name")) else None)
    // The only exceptions: an artist entry or a first image entry that is not an object.
    ensures r.Malformed? <==>
      OptObject(doc, "item").Some? && (ItemArtists(OptObject(doc, "item").value).None? || FirstImage(OptObject(doc, "item").value).None?)
  {
    match OptObject(doc, "item")
    case None => Extracted(NoTrack, mem)
    case Some(item) =>
      var device := OptObject(doc, "device");
      var id := OptString(item, "id");
      var mem1 := if id != mem.previousTrackId then mem.(previousTrackId := id) else mem;
      var artists := ItemArtists(item);
      var image := FirstImage(item);
      if artists.None? || image.None? then Malformed
      else
        var url := image.value;
        var isSameImage := url.Some? && url.value == mem1.previousTrackImage;
        var mem2 := if url.Some? && !isSameImage then mem1.(previousTrackImage := url.value) else mem1;
        var info := TrackInfo(
          id,
          id == mem.previousTrackId,
          OptBoolean(doc, "is_playing"),
          OptString(item, "name"),
          artists.value,
          OptLong(item, "duration_ms"),
          OptLong(doc, "progress_ms"),
          url,
          isSameImage,
          OptBoolean(doc, "shuffle_state"),
          OptBoolean(doc, "smart_shuffle"),
          !ShuffleToggleDisallowed(doc),
          if device.Some? then Some(OptInt(device.value, "volume_percent")) else None,
          if device.Some? then Some(OptBoolean(device.value, "supports_volume")) else None,
          if device.Some? then Some(OptString(device.value, "name")) else None);
        Extracted(info, mem2)
  }

  /** Extracting the same document twice in a row: the second snapshot reports
      the same track, and the same image whenever there is one. */
  lemma ExtractTwiceIsSame(doc: Object, mem: Memory)
    requires OptObject(doc, "item").Some?
    requires ExtractTrackInfo(doc, mem).Extracted?
    ensures var first := ExtractTrackInfo(doc, mem);
            var second := ExtractTrackInfo(doc, first.memory);
            && second.Extracted?
            && second.info.isSameTrack
            && (second.info.imageUrl.Some? ==> second.info.isSameImage)
            && second.memory == first.memory
            && second.info == first.info.(isSameTrack := true, isSameImage := first.info.imageUrl.Some?)
  {
  }

  /** Without an `item` the detectors are left as they were, so a paused
      gap in playback does not make the following track look new. */
  lemma NoItemKeepsDetectors(doc: Object, doc2: Object, mem: Memory)
    requires OptObject(doc, "item").None?
    ensures ExtractTrackInfo(doc2, ExtractTrackInfo(doc, mem).memory) == ExtractTrackInfo(doc2, mem)
  {
  }
}

=== FILE: format.dfy ===
/** Text and arithmetic the player screen derives from a snapshot: the
    `mm:ss` clock of a millisecond count, the comma-joined artist line, and
    the seek position picked on the 0..1000 progress bar. */
module Format {
  import opened Basics

  /** `String.format("%02d", n)` with ASCII digits: at least two characters,
      a leading zero for 0..9, a minus sign for negative values. */
  function Pad2(n: int): (s: string)
    ensures |s| >= 2
    ensures 0 <= n ==> AllDigits(s) && DigitsValue(s) == n
    ensures 0 <= n < 100 ==> |s| == 2
  {
    if 0 <= n < 10 then
      assert DigitsValue("0" + NatToString(n)) == n by {
        var t := "0" + NatToString(n);
        assert t[..1] == "0";
        assert DigitsValue(t[..1]) == 0;
        NatToStringRoundTrip(n);
      }
      "0" + NatToString(n)
    else
      assert 0 <= n ==> DigitsValue(IntToString(n)) == n by {
        if 0 <= n { NatToStringRoundTrip(n); }
      }
      IntToString(n)
  }

  /** The `mm:ss` text of a millisecond count (whole minutes, then the
      remaining whole seconds), with Kotlin's truncating `/` and `%`. */
  function Clock(ms: int): (s: string)
    ensures |s| >= 5
    ensures ms >= 0 ==> s[|s| - 3] == ':'
  {
    Pad2(JavaDiv(ms, 60000)) + ":" + Pad2(JavaDiv(JavaRem(ms, 60000), 1000))
  }

  /** Reads a clock text back into (minutes, seconds). */
  function ParseClock(s: string): (r: Option<(int, int)>)
  {
    if |s| >= 5 && s[|s| - 3] == ':' && AllDigits(s[..|s| - 3]) && AllDigits(s[|s| - 2..]) then
      Some((DigitsValue(s[..|s| - 3]), DigitsValue(s[|s| - 2..])))
    else None
  }

  /** For a non-negative count the clock shows the whole minutes and the
      seconds within the minute (always two digits, below 60), and reading it
      back gives a time within one second below the count. */
  lemma ClockRoundTrip(ms: int)
    requires ms >= 0
    ensures var r := ParseClock(Clock(ms));
            && r == Some((ms / 60000, (ms % 60000) / 1000))
            && r.value.1 < 60
            && r.value.0 * 60000 + r.value.1 * 1000 <= ms < r.value.0 * 60000 + r.value.1 * 1000 + 1000
  {
    var r := ms % 60000;
    assert JavaDiv(ms, 60000) == ms / 60000;
    assert JavaRem(ms, 60000) == r;
    assert JavaDiv(r, 1000) == r / 1000;
    ClockArithmetic(ms);
    var m := Pad2(ms / 60000);
    var sec := Pad2(r / 1000);
    var s := m + ":" + sec;
    assert Clock(ms) == s;
    assert s[..|s| - 3] == m;
    assert s[|s| - 2..] == sec;
  }

  /** Whole minutes and the whole seconds left over lie within one second
      below the count. */
  lemma ClockArithmetic(ms: int)
    requires ms >= 0
    ensures (ms % 60000) / 1000 < 60
    ensures (ms / 60000) * 60000 + ((ms % 60000) / 1000) * 1000 <= ms
    ensures ms < (ms / 60000) * 60000 + ((ms % 60000) / 1000) * 1000 + 1000
  {
    var r := ms % 60000;
    assert ms == (ms / 60000) * 60000 + r;
    assert (r / 1000) * 1000 <= r < (r / 1000) * 1000 + 1000;
  }

  /** The artist line as the source builds it: after each name a ", " is
      appended unless that NAME equals the last artist's name. */
  function JoinArtistsAsWritten(names: seq<string>): (s: string)
  {
    if |names| == 0 then "" else JoinComparingLast(names, names[|names| - 1])
  }

  function JoinComparingLast(names: seq<string>, last: string): string
  {
    if |names| == 0 then ""
    else names[0] + (if names[0] != last then ", " else "") + JoinComparingLast(names[1..], last)
  }

  /** Reference definition of the artist line: the names in order, separated
      by ", ", with no separator after the last one. */
  function Joined(names: seq<string>): string
  {
    if |names| == 0 then ""
    else if |names| == 1 then names[0]
    else Joined(names[..|names| - 1]) + ", " + names[|names| - 1]
  }

  /** The artist line with the separator decided by POSITION, built the way
      the source's loop builds it. */
  method JoinArtists(names: seq<string>) returns (s: string)
    ensures s == Joined(names)
    ensures |names| > 0 ==> |s| >= |names[|names| - 1]| && s[|s| - |names[|names| - 1]|..] == names[|names| - 1]
  {
    s := "";
    var i := 0;
    while i < |names|
      invariant 0 <= i <= |names|
      invariant i == 0 ==> s == ""
      invariant 0 < i < |names| ==> s == Joined(names[..i]) + ", "
      invariant 0 < i == |names| ==> s == Joined(names[..i])
    {
      assert names[..i + 1][..i] == names[..i];
      s := s + names[i];
      if i != |names| - 1 {
        s := s + ", ";
      }
      i := i + 1;
    }
    assert names[..|names|] == names;
  }

  /** The two constructions agree whenever the last artist's name occurs
      only once. */
  lemma {:induction false} AsWrittenAgreesWhenLastUnique(names: seq<string>)
    requires |names| > 0
    requires forall i :: 0 <= i < |names| - 1 ==> names[i] != names[|names| - 1]
    ensures JoinArtistsAsWritten(names) == Joined(names)
  {
    JoinPrefixAgrees(names, names[|names| - 1], |names|);
    assert names[..|names|] == names;
  }

  lemma {:induction false} JoinPrefixAgrees(names: seq<string>, last: string, k: nat)
    requires 0 < k <= |names|
    requires names[k - 1] == last
    requires forall i :: 0 <= i < k - 1 ==> names[i] != last
    ensures JoinComparingLast(names[..k], last) == Joined(names[..k])
    decreases k
  {
    if k == 1 {
      assert names[..1][1..] == [];
    } else {
      var p := names[..k];
      assert p[0] != last;
      assert JoinComparingLast(p, last) == p[0] + ", " + JoinComparingLast(p[1..], last);
      JoinTailAgrees(p, last);
    }
  }

  /** Separator-before-name form of the reference join. */
  lemma {:induction false} JoinedFront(names: seq<string>)
    requires |names| >= 2
    ensures Joined(names) == names[0] + ", " + Joined(names[1..])
    decreases |names|
  {
    if |names| == 2 {
      assert names[..1] == [names[0]];
      assert names[1..] == [names[1]];
    } else {
      var init := names[..|names| - 1];
      JoinedFront(init);
      assert init[1..] == names[1..][..|names[1..]| - 1];
      assert init[0] == names[0];
    }
  }

  lemma {:induction false} JoinTailAgrees(p: seq<string>, last: string)
    requires |p| >= 2
    requires p[|p| - 1] == last
    requires forall i :: 0 <= i < |p| - 1 ==> p[i] != last
    ensures JoinComparingLast(p, last) == Joined(p)
    decreases |p|
  {
    var t := p[1..];
    if |t| == 1 {
      assert JoinComparingLast(t, last) == t[0] + "" + JoinComparingLast(t[1..], last);
      assert t[1..] == [];
      assert JoinComparingLast(t, last) == t[0];
    } else {
      JoinTailAgrees(t, last);
    }
    JoinedFront(p);
  }

  /** The construction as written agrees with the reference join exactly
      when no artist before the last bears the last artist's name; when one
      does, the line as written is shorter: it has lost a separator. */
  lemma AsWrittenAgreesIffLastUnique(names: seq<string>)
    requires |names| > 0
    ensures JoinArtistsAsWritten(names) == Joined(names)
            <==> forall i :: 0 <= i < |names| - 1 ==> names[i] != names[|names| - 1]
    ensures (exists i :: 0 <= i < |names| - 1 && names[i] == names[|names| - 1]) ==>
            |JoinArtistsAsWritten(names)| < |Joined(names)|
  {
    var last := names[|names| - 1];
    if forall i :: 0 <= i < |names| - 1 ==> names[i] != last {
      AsWrittenAgreesWhenLastUnique(names);
    } else {
      var i :| 0 <= i < |names| - 1 && names[i] == last;
      AsWrittenLength(names, last);
      JoinedLength(names);
      DifferingBelow(names, last, i, |names| - 1);
    }
  }

  /** The total length of the names. */
  function TotalLength(names: seq<string>): nat
    decreases |names|
  {
    if |names| == 0 then 0 else |names[0]| + TotalLength(names[1..])
  }

  /** How many of the names differ from `last`. */
  function Differing(names: seq<string>, last: string): (n: nat)
    ensures n <= |names|
    decreases |names|
  {
    if |names| == 0 then 0 else (if names[0] != last then 1 else 0) + Differing(names[1..], last)
  }

  /** The line as written holds one separator per name that differs from the last name. */
  lemma {:induction false} AsWrittenLength(names: seq<string>, last: string)
    ensures |JoinComparingLast(names, last)| == TotalLength(names) + 2 * Differing(names, last)
    decreases |names|
  {
    if |names| > 0 {
      AsWrittenLength(names[1..], last);
    }
  }

  /** The reference join holds one separator fewer than there are names. */
  lemma {:induction false} JoinedLength(names: seq<string>)
    requires |names| > 0
    ensures |Joined(names)| == TotalLength(names) + 2 * (|names| - 1)
    decreases |names|
  {
    if |names| == 1 {
      assert names[1..] == [];
    } else {
      JoinedFront(names);
      JoinedLength(names[1..]);
    }
  }

  /** Two positions holding `last` leave at most all the other names differing. */
  lemma {:induction false} DifferingBelow(names: seq<string>, last: string, i: nat, j: nat)
    requires i < j < |names| && names[i] == last && names[j] == last
    ensures Differing(names, last) <= |names| - 2
    decreases |names|
  {
    if i == 0 {
      DifferingAtMost(names[1..], last, j - 1);
    } else {
      DifferingBelow(names[1..], last, i - 1, j - 1);
    }
  }

  /** One position holding `last` leaves at most the other names differing. */
  lemma {:induction false} DifferingAtMost(names: seq<string>, last: string, j: nat)
    requires j < |names| && names[j] == last
    ensures Differing(names, last) <= |names| - 1
    decreases |names|
  {
    if j > 0 {
      DifferingAtMost(names[1..], last, j - 1);
    }
  }

  /** Three artists whose first and last share a name lose the first comma:
      the source prints "AB, A" where "A, B, A" is meant. */
  lemma DuplicateLastNameDropsComma()
    ensures JoinArtistsAsWritten(["A", "B", "A"]) == "AB, A"
    ensures Joined(["A", "B", "A"]) == "A, B, A"
  {
    assert ["A", "B", "A"][1..] == ["B", "A"];
    assert ["B", "A"][1..] == ["A"];
    assert ["A", "B", "A"][..2] == ["A", "B"];
    assert ["A", "B"][..1] == ["A"];
  }

  /** The seek target picked on the progress bar:
      `(progress * totalDuration) / 1000` in `Long` arithmetic. */
  function SeekPosition(progress: int, totalDuration: int): (ms: int)
    requires INT_MIN <= progress <= INT_MAX
    requires LONG_MIN <= totalDuration <= LONG_MAX
    // With the bar in its 0..1000 range and a real duration, the target lies
    // in the track and is the largest whole millisecond not past the picked
    // fraction.
    ensures 0 <= progress <= 1000 && 0 <= totalDuration < LONG_MAX / 1000 ==>
      && 0 <= ms <= totalDuration
      && ms * 1000 <= progress * totalDuration < ms * 1000 + 1000
    ensures progress == 0 ==> ms == 0
    ensures progress == 1000 && 0 <= totalDuration < LONG_MAX / 1000 ==> ms == totalDuration
  {
    if 0 <= progress <= 1000 && 0 <= totalDuration < LONG_MAX / 1000 then
      ProductInRange(progress, 1000, totalDuration);
      JavaDiv(ToInt64(progress * totalDuration), 1000)
    else
      JavaDiv(ToInt64(progress * totalDuration), 1000)
  }

  lemma ProductInRange(a: int, b: int, t: int)
    requires 0 <= a <= b
    requires 0 <= t
    ensures 0 <= a * t <= b * t
  {
    assert (b - a) * t >= 0;
  }

  lemma SeekMonotone(p1: int, p2: int, totalDuration: int)
    requires 0 <= p1 <= p2 <= 1000
    requires 0 <= totalDuration < LONG_MAX / 1000
    ensures SeekPosition(p1, totalDuration) <= SeekPosition(p2, totalDuration)
  {
    ProductInRange(p1, p2, totalDuration);
    ProductInRange(p2, 1000, totalDuration);
  }
}

=== FILE: gestures.dfy ===
/** The gestures of the player screen: the classification of a fling into a
    swipe in one of four directions (`onFling`), the skip requests of the
    horizontal swipes (`onSwipeLeft`, `onSwipeRight`) and the volume steps of
    the vertical swipes (`onSwipeUp`, `onSwipeDown`). */
module Gestures {
  import opened Basics
  import opened Player
  import opened Connectivity
  import opened Extract
  import opened Commands

  /** The distance, in pixels, a fling must exceed along its main axis. */
  const MIN_SWIPE_DISTANCE: int := 150
  /** The band at the top and bottom of the screen where no swipe may start. */
  const MAX_SWIPE_OFF_SCREEN_VERTICAL: int := 100
  /** The band at the left and right of the screen where no swipe may start. */
  const MAX_SWIPE_OFF_SCREEN_HORIZONTAL: int := 70

  datatype Swipe = SwipeLeft | SwipeRight | SwipeUp | SwipeDown

  function Abs(n: int): (r: nat)
    ensures r == n || r == -n
  {
    if n < 0 then -n else n
  }

  /** Whether a fling starting at (x1, y1) starts away from every border. */
  predicate StartsInside(x1: int, y1: int, width: int, height: int) {
    && MAX_SWIPE_OFF_SCREEN_VERTICAL < y1 < height - MAX_SWIPE_OFF_SCREEN_VERTICAL
    && MAX_SWIPE_OFF_SCREEN_HORIZONTAL < x1 < width - MAX_SWIPE_OFF_SCREEN_HORIZONTAL
  }

  /** `onFling` from (x1, y1) to (x2, y2) on a `width` x `height` screen, in
      screen coordinates (y grows downwards); `None` is a fling the screen
      does not handle. */
  function Fling(x1: int, y1: int, x2: int, y2: int, width: int, height: int): (r: Option<Swipe>)
    ensures r.Some? ==> StartsInside(x1, y1, width, height)
    ensures r == Some(SwipeRight) <==> StartsInside(x1, y1, width, height) && Abs(x2 - x1) > Abs(y2 - y1) && x2 - x1 > MIN_SWIPE_DISTANCE
    ensures r == Some(SwipeLeft) <==> StartsInside(x1, y1, width, height) && Abs(x2 - x1) > Abs(y2 - y1) && x1 - x2 > MIN_SWIPE_DISTANCE
    // A fling as long across as along counts as vertical.
    ensures r == Some(SwipeDown) <==> StartsInside(x1, y1, width, height) && Abs(x2 - x1) <= Abs(y2 - y1) && y2 - y1 > MIN_SWIPE_DISTANCE
    ensures r == Some(SwipeUp) <==> StartsInside(x1, y1, width, height) && Abs(x2 - x1) <= Abs(y2 - y1) && y1 - y2 > MIN_SWIPE_DISTANCE
  {
    var dx := x2 - x1;
    var dy := y2 - y1;
    if StartsInside(x1, y1, width, height) then
      if Abs(dx) > Abs(dy) then
        if Abs(dx) > MIN_SWIPE_DISTANCE then Some(if dx > 0 then SwipeRight else SwipeLeft) else None
      else
        if Abs(dy) > MIN_SWIPE_DISTANCE then Some(if dy > 0 then SwipeDown else SwipeUp) else None
    else None
  }

  function MirrorHorizontally(s: Swipe): Swipe {
    match s
    case SwipeLeft => SwipeRight
    case SwipeRight => SwipeLeft
    case _ => s
  }

  function MirrorVertically(s: Swipe): Swipe {
    match s
    case SwipeUp => SwipeDown
    case SwipeDown => SwipeUp
    case _ => s
  }

  /** The classification is symmetric: mirroring a fling left to right
      mirrors its swipe, and so does mirroring it top to bottom. */
  lemma FlingMirrors(x1: int, y1: int, x2: int, y2: int, width: int, height: int)
    ensures var r := Fling(x1, y1, x2, y2, width, height);
            var h := Fling(width - x1, y1, width - x2, y2, width, height);
            var v := Fling(x1, height - y1, x2, height - y2, width, height);
            && (r.None? <==> h.None?) && (r.Some? ==> h == Some(MirrorHorizontally(r.value)))
            && (r.None? <==> v.None?) && (r.Some? ==> v == Some(MirrorVertically(r.value)))
  {
  }

  /** A fling no longer than the threshold along both axes is never a
      swipe, wherever it starts. */
  lemma ShortFlingIgnored(x1: int, y1: int, x2: int, y2: int, width: int, height: int)
    requires Abs(x2 - x1) <= MIN_SWIPE_DISTANCE && Abs(y2 - y1) <= MIN_SWIPE_DISTANCE
    ensures Fling(x1, y1, x2, y2, width, height).None?
  {
  }

  /* ------------------------------ skip swipes ------------------------------ */

  /** `onSwipeLeft` (`next`) and `onSwipeRight`: with the internet flag set and
      horizontal swipes enabled, the cover starts its swipe animation and the
      skip request goes out as from the skip buttons.  The animation flag is
      set at once, where the device sets it when the animation starts. */
  function SwipeSkip(s: Screen, next: bool, horizontalSwipe: bool, available: bool): (r: Step<Screen>)
    ensures !(s.connection.isInternet && horizontalSwipe) ==> r == Step(s, [])
    ensures s.connection.isInternet && horizontalSwipe ==>
      && r.value == s.(connection := s.connection.(isInternet := available), track := s.track.(isImageSwiped := true))
      && Count(r.effects, SendSkip(next)) == (if available then 1 else 0)
      && Count(r.effects, SendSkip(!next)) == 0
  {
    if s.connection.isInternet && horizontalSwipe then
      SkipButton(s.(track := s.track.(isImageSwiped := true)), next, available)
    else Step(s, [])
  }

  /** After a skip swipe the cover of whatever track comes next is loaded
      once, at the end of the swipe animation, whether or not it is the same
      image. */
  lemma SwipeDefersCover(s: Screen, next: bool, available: bool, t: TrackInfo)
    requires s.connection.isInternet
    ensures CoverRefresh(SwipeSkip(s, next, true, available).value.track, t, true) == [LoadTrackImage(t.imageUrl, true)]
  {
    assert SwipeSkip(s, next, true, available).value.track.isImageSwiped;
  }

  /* ------------------------------ volume steps ----------------------------- */

  /** The volume a swipe up asks for: ten points more, capped at 100; `None`
      when no request is sent. */
  function VolumeUp(v: int): (r: Option<int>)
    ensures r.None? <==> v >= 100
    ensures 0 <= v <= 100 && r.Some? ==> v < r.value <= 100
    ensures r.Some? && r.value != 100 ==> r.value == v + 10
  {
    if v <= 90 then Some(v + 10)
    else if 91 <= v <= 99 then Some(100)
    else None
  }

  /** The volume a swipe down asks for: ten points less, floored at 0;
      `None` when no request is sent. */
  function VolumeDown(v: int): (r: Option<int>)
    ensures r.None? <==> v <= 0
    ensures 0 <= v <= 100 && r.Some? ==> 0 <= r.value < v
    ensures r.Some? && r.value != 0 ==> r.value == v - 10
  {
    if v >= 10 then Some(v - 10)
    else if 1 <= v <= 9 then Some(0)
    else None
  }

  /** Away from the ends of the range a step up and a step down undo each
      other. */
  lemma VolumeStepsInverse(v: int)
    ensures 0 <= v <= 90 ==> VolumeDown(VolumeUp(v).value) == Some(v)
    ensures 10 <= v <= 100 ==> VolumeUp(VolumeDown(v).value) == Some(v)
  {
  }

  /** The volume after `n` swipes up, each asking for `VolumeUp` of the
      previous one and taking effect. */
  function StepsUp(v: int, n: nat): int
    decreases n
  {
    if n == 0 then v
    else match VolumeUp(v)
      case None => v
      case Some(u) => StepsUp(u, n - 1)
  }

  /** From any volume in range, enough swipes up reach 100 (ten always
      suffice) and stop there. */
  lemma {:induction false} SwipesUpReachFull(v: int, n: nat)
    requires 0 <= v <= 100 && v + 10 * n >= 100
    ensures StepsUp(v, n) == 100
    decreases n
  {
    if v < 100 {
      SwipesUpReachFull(VolumeUp(v).value, n - 1);
    }
  }

  /* ------------------------------ volume swipes ---------------------------- */

  /** The request of a volume step (`sendVolumeRequest`, which checks the
      connectivity first) followed by the volume bar; no step, no request. */
  function VolumeRequest(c: Connection, step: Option<int>, available: bool): (r: Step<Connection>)
    ensures |r.effects| > 0 && r.effects[|r.effects| - 1] == ShowVolumeBar
    ensures step.None? ==> r == Step(c, [ShowVolumeBar])
    ensures step.Some? ==> r.value == c.(isInternet := available)
  {
    match step
    case Some(percent) =>
      var net := CheckInternet(c, available);
      var request := if available then [SendVolume(percent)] else [];
      Step(net.value, net.effects + request + [ShowVolumeBar])
    case None => Step(c, [ShowVolumeBar])
  }

  /** A volume request sends the step and nothing else, and only when the
      connectivity check passes. */
  lemma VolumeRequestSends(c: Connection, step: Option<int>, available: bool, percent: int)
    ensures Count(VolumeRequest(c, step, available).effects, SendVolume(percent)) ==
      (if available && step == Some(percent) then 1 else 0)
  {
    var r := VolumeRequest(c, step, available);
    if step.Some? {
      var net := CheckInternet(c, available);
      var request := if available then [SendVolume(step.value)] else [];
      CountAbsent(net.effects, SendVolume(percent));
      CountAppend(net.effects, request, SendVolume(percent));
      CountAppend(net.effects + request, [ShowVolumeBar], SendVolume(percent));
    }
  }

  /** `onSwipeUp` (`up`) and `onSwipeDown`: with the internet flag set and
      vertical swipes enabled, a device with volume control gets the stepped
      volume (sent only when the connectivity check passes) and the volume
      bar is shown; a device without it is reported.  The step is not
      applied to the screen: the confirmation of the request does that. */
  function SwipeVolume(s: Screen, up: bool, verticalSwipe: bool, available: bool): (r: Step<Screen>)
    ensures !(s.connection.isInternet && verticalSwipe) ==> r == Step(s, [])
    ensures r.value.volume == s.volume && r.value.like == s.like && r.value.track == s.track
    ensures s.connection.isInternet && verticalSwipe && !s.volume.isSupportsVolume ==>
      r == Step(s, [Toast(s.deviceName.GetOr("null") + " does not support volume control")])
    ensures s.connection.isInternet && verticalSwipe && s.volume.isSupportsVolume ==>
      |r.effects| > 0 && r.effects[|r.effects| - 1] == ShowVolumeBar
  {
    if s.connection.isInternet && verticalSwipe then
      if s.volume.isSupportsVolume then
        var sent := VolumeRequest(s.connection, if up then VolumeUp(s.volume.percentVolume) else VolumeDown(s.volume.percentVolume), available);
        Step(s.(connection := sent.value), sent.effects)
      else Step(s, [Toast(s.deviceName.GetOr("null") + " does not support volume control")])
    else Step(s, [])
  }

  /** Every volume a swipe sends is in range, above the shown one going up
      and below it going down; at the end of the range nothing is sent. */
  lemma SwipeVolumeSends(s: Screen, up: bool, verticalSwipe: bool, available: bool, percent: int)
    requires 0 <= s.volume.percentVolume <= 100
    ensures Count(SwipeVolume(s, up, verticalSwipe, available).effects, SendVolume(percent)) > 0 ==>
      && 0 <= percent <= 100
      && (up ==> percent > s.volume.percentVolume)
      && (!up ==> percent < s.volume.percentVolume)
      && s.volume.percentVolume != (if up then 100 else 0)
  {
    SwipeSendsTheStep(s, up, verticalSwipe, available, percent);
  }

  /** The only volume a swipe sends is the step of the shown volume. */
  lemma SwipeSendsTheStep(s: Screen, up: bool, verticalSwipe: bool, available: bool, percent: int)
    ensures Count(SwipeVolume(s, up, verticalSwipe, available).effects, SendVolume(percent)) > 0 ==>
      (if up then VolumeUp(s.volume.percentVolume) else VolumeDown(s.volume.percentVolume)) == Some(percent)
  {
    if s.connection.isInternet && verticalSwipe && s.volume.isSupportsVolume {
      VolumeRequestSends(s.connection, if up then VolumeUp(s.volume.percentVolume) else VolumeDown(s.volume.percentVolume), available, percent);
    }
  }
}

=== FILE: home.dfy ===
/** The home screen: the client-ID validator (`checkClientID`), the submit
    button that stores a valid client ID, the choice made when the screen
    opens, and the settings the first start writes and the player reads. */
module Home {
  /** A value of the app's key-value preferences. */
  datatype Pref = PBool(b: bool) | PInt(i: int) | PString(s: string)

  /** One preferences file. */
  type Prefs = map<string, Pref>

  /** The character tests of the platform (`Char.isLetterOrDigit`,
      `Char.isUpperCase`), which cover all of Unicode and are given as
      parameters. */
  datatype Classifier = Classifier(isLetterOrDigit: char -> bool, isUpperCase: char -> bool)

  predicate IsAsciiLowerOrDigit(ch: char) {
    'a' <= ch <= 'z' || '0' <= ch <= '9'
  }

  /** A classifier that agrees with ASCII on ASCII characters. */
  predicate AgreesWithAscii(c: Classifier) {
    && (forall ch: char :: ch < 128 as char ==>
          c.isLetterOrDigit(ch) == ('a' <= ch <= 'z' || 'A' <= ch <= 'Z' || '0' <= ch <= '9'))
    && (forall ch: char :: ch < 128 as char ==> c.isUpperCase(ch) == ('A' <= ch <= 'Z'))
  }

  /** A character a client ID may hold: a letter or digit, not upper case,
      not a space. */
  predicate Allowed(c: Classifier, ch: char) {
    c.isLetterOrDigit(ch) && !c.isUpperCase(ch) && ch != ' '
  }

  /** A valid client ID: 32 allowed characters. */
  predicate ValidClientId(c: Classifier, id: string) {
    |id| == 32 && forall i :: 0 <= i < |id| ==> Allowed(c, id[i])
  }

  /** `checkClientID`: the length test, then a scan that stops at the first
      character that is not allowed. */
  method CheckClientId(c: Classifier, id: string) returns (ok: bool)
    ensures ok <==> ValidClientId(c, id)
    ensures |id| != 32 ==> !ok
  {
    if |id| != 32 {
      return false;
    }
    var i := 0;
    while i < |id|
      invariant 0 <= i <= |id|
      invariant forall j :: 0 <= j < i ==> Allowed(c, id[j])
    {
      if !c.isLetterOrDigit(id[i]) || c.isUpperCase(id[i]) || id[i] == ' ' {
        return false;
      }
      i := i + 1;
    }
    return true;
  }

  /** With ASCII-faithful character tests, every 32-character string of
      lower-case letters and digits is a valid client ID, and a string with
      an ASCII upper-case letter or a space is not. */
  lemma AsciiClientIds(c: Classifier, id: string)
    requires AgreesWithAscii(c)
    ensures |id| == 32 && (forall i :: 0 <= i < |id| ==> IsAsciiLowerOrDigit(id[i])) ==> ValidClientId(c, id)
    ensures (exists i :: 0 <= i < |id| && ('A' <= id[i] <= 'Z' || id[i] == ' ')) ==> !ValidClientId(c, id)
  {
    if |id| == 32 && (forall i :: 0 <= i < |id| ==> IsAsciiLowerOrDigit(id[i])) {
      forall i | 0 <= i < |id|
        ensures Allowed(c, id[i])
      {
        assert c.isLetterOrDigit(id[i]);
        assert !c.isUpperCase(id[i]);
      }
    }
    if exists i :: 0 <= i < |id| && ('A' <= id[i] <= 'Z' || id[i] == ' ') {
      var i :| 0 <= i < |id| && ('A' <= id[i] <= 'Z' || id[i] == ' ');
      if 'A' <= id[i] <= 'Z' {
        assert c.isUpperCase(id[i]);
      } else {
        assert !c.isLetterOrDigit(id[i]);
      }
      assert !Allowed(c, id[i]);
    }
  }

  /* ----------------------------- home decisions ---------------------------- */

  /** What the home screen shows or does. */
  datatype Outcome =
    | ToastMessage(text: string)
    | InstallDialog(cancelable: bool)
    | PlayerPage
    | HomePage(installDialog: bool)

  datatype Submitted = Submitted(outcome: Outcome, spotify: Prefs)

  /** The submit button on the entered text, with Spotify installed or not,
      over the "spotify" preferences file. */
  function Submit(c: Classifier, input: string, installed: bool, spotify: Prefs): (r: Submitted)
    // The ID is stored, and the player opened, exactly when it is valid and Spotify is installed.
    ensures r.outcome == PlayerPage <==> installed && ValidClientId(c, input)
    ensures r.outcome == PlayerPage ==> r.spotify == spotify["client_id" := PString(input)]
    ensures r.outcome != PlayerPage ==> r.spotify == spotify
    ensures input == "" ==> r.outcome == ToastMessage("Enter a client ID")
    ensures input != "" && !installed ==> r.outcome == InstallDialog(true)
    ensures input != "" && installed && !ValidClientId(c, input) ==> r.outcome == ToastMessage("Invalid client ID")
  {
    if input == "" then Submitted(ToastMessage("Enter a client ID"), spotify)
    else if !installed then Submitted(InstallDialog(true), spotify)
    else if ValidClientId(c, input) then Submitted(PlayerPage, spotify["client_id" := PString(input)])
    else Submitted(ToastMessage("Invalid client ID"), spotify)
  }

  /** A successful submit leaves a valid client ID stored, so that from then
      on opening the app goes straight to the player, with the settings left
      as they are. */
  lemma SubmitStoresValidIds(c: Classifier, input: string, installed: bool, spotify: Prefs, settings: Prefs)
    requires Submit(c, input, installed, spotify).outcome == PlayerPage
    ensures var stored := Submit(c, input, installed, spotify).spotify;
            && "client_id" in stored && stored["client_id"].PString? && ValidClientId(c, stored["client_id"].s)
            && Open(stored, settings, installed) == Opened(PlayerPage, settings)
  {
  }

  datatype Opened = Opened(outcome: Outcome, settings: Prefs)

  /** The home screen opening: with a stored client ID it goes straight to
      the player (or shows a dialog that cannot be dismissed when Spotify is
      missing); otherwise the home page is shown, with the dismissable
      install dialog over it when Spotify is missing, and the settings are
      reset to their defaults. */
  function Open(spotify: Prefs, settings: Prefs, installed: bool): (r: Opened)
    ensures "client_id" in spotify ==> r.settings == settings
    ensures "client_id" in spotify && installed ==> r.outcome == PlayerPage
    ensures "client_id" in spotify && !installed ==> r.outcome == InstallDialog(false)
    ensures "client_id" !in spotify ==> r.outcome == HomePage(!installed) && LoadSettings(r.settings) == Defaults
  {
    if "client_id" in spotify then
      Opened(if installed then PlayerPage else InstallDialog(false), settings)
    else
      InitSettingsRead(settings);
      Opened(HomePage(!installed), InitAppSettings(settings))
  }

  /* -------------------------------- settings ------------------------------- */

  /** The settings the player reads. */
  datatype Settings = Settings(
    fullScreen: bool,
    hideControls: bool,
    displayTime: int,
    blurBackground: bool,
    blurValue: int,
    darkenValue: int,
    verticalSwipe: bool,
    horizontalSwipe: bool,
    doubleTap: bool)

  /** The settings a first start writes. */
  const Defaults: Settings := Settings(true, true, 10, true, 15, 60, true, true, true)

  /** The settings the player falls back on for keys never written. */
  const Fallbacks: Settings := Settings(false, false, 5, false, 15, 60, false, false, false)

  /** `initAppSettings`: the first-start defaults written into the "settings"
      file (the theme included, which the player does not read). */
  function InitAppSettings(p: Prefs): (r: Prefs)
    ensures r.Keys == p.Keys + SETTINGS_KEYS
    ensures forall k :: k in r && k !in SETTINGS_KEYS ==> k in p && r[k] == p[k]
    ensures "theme" in r && r["theme"] == PInt(0)
  {
    p["full_screen" := PBool(true)]["theme" := PInt(0)]["hide_controls" := PBool(true)]
     ["display_time" := PInt(10)]["blur_background" := PBool(true)]["blur_value" := PInt(15)]
     ["darken_value" := PInt(60)]["vertical_swipe" := PBool(true)]["horizontal_swipe" := PBool(true)]
     ["double_tap" := PBool(true)]
  }

  /** The keys the first start writes. */
  const SETTINGS_KEYS: set<string> := {"full_screen", "theme", "hide_controls", "display_time", "blur_background",
                                       "blur_value", "darken_value", "vertical_swipe", "horizontal_swipe", "double_tap"}

  /** `getBoolean(key, fallback)` of a file whose values have the type the
      key is written with. */
  function GetBoolean(p: Prefs, key: string, fallback: bool): (b: bool)
    ensures key !in p ==> b == fallback
  {
    if key in p && p[key].PBool? then p[key].b else fallback
  }

  /** `getInt(key, fallback)`, likewise. */
  function GetInt(p: Prefs, key: string, fallback: int): (n: int)
    ensures key !in p ==> n == fallback
  {
    if key in p && p[key].PInt? then p[key].i else fallback
  }

  /** The settings the player reads when it opens, with its fallbacks. */
  function LoadSettings(p: Prefs): (r: Settings)
    ensures p == map[] ==> r == Fallbacks
  {
    Settings(
      GetBoolean(p, "full_screen", false),
      GetBoolean(p, "hide_controls", false),
      GetInt(p, "display_time", 5),
      GetBoolean(p, "blur_background", false),
      GetInt(p, "blur_value", 15),
      GetInt(p, "darken_value", 60),
      GetBoolean(p, "vertical_swipe", false),
      GetBoolean(p, "horizontal_swipe", false),
      GetBoolean(p, "double_tap", false))
  }

  /** Whatever the file held, after the first-start initialisation the
      player reads exactly the written defaults. */
  lemma InitSettingsRead(p: Prefs)
    ensures LoadSettings(InitAppSettings(p)) == Defaults
  {
  }

  /** The player's fallbacks are not the first-start defaults: a missing
      key gives a five-second display time and every switch off. */
  lemma FallbacksDifferFromDefaults()
    ensures LoadSettings(map[]) != LoadSettings(InitAppSettings(map[]))
    ensures LoadSettings(map[]).displayTime == 5 && Defaults.displayTime == 10
  {
    InitSettingsRead(map[]);
  }
}

=== FILE: json.dfy ===
/** An already-parsed JSON document and the lenient accessors of Android's
    `org.json` that the player screen uses to read it (`optString`,
    `optBoolean`, `optInt`, `optLong`, `optJSONObject`, `optJSONArray`) and
    the strict ones (`getJSONObject`, `getBoolean`), whose exception is
    modelled as `None`.  Numbers are integers; text-level parsing is not part
    of this model. */
module Json {
  import opened Basics

  datatype Json =
    | Null
    | Bool(b: bool)
    | Num(n: int)
    | Str(s: string)
    | Arr(items: seq<Json>)
    | Obj(fields: map<string, Json>)

  type Object = map<string, Json>

  /** `opt(name)`: the raw member value, absent when the key is missing. */
  function Opt(o: Object, key: string): (r: Option<Json>)
    ensures r.Some? <==> key in o
  {
    if key in o then Some(o[key]) else None
  }

  /** The library's boolean coercion: a boolean, or the text "true"/"false"
      in any letter case; anything else has no boolean reading. */
  function ToBoolean(v: Json): (r: Option<bool>)
    ensures v.Bool? ==> r == Some(v.b)
    ensures r.Some? ==> v.Bool? || v.Str?
    ensures v.Str? ==> (r == Some(true) <==> EqualsIgnoreCase(v.s, "true"))
  {
    match v
    case Bool(b) => Some(b)
    case Str(s) =>
      if EqualsIgnoreCase(s, "true") then Some(true)
      else if EqualsIgnoreCase(s, "false") then Some(false)
      else None
    case _ => None
  }

  /** The library's string coercion (`String.valueOf` of the member). */
  function ToText(v: Json): (r: string)
    ensures v.Str? ==> r == v.s
    ensures v.Num? ==> ParseInt(r) == Some(v.n)
  {
    match v
    case Str(s) => s
    case Null => "null"
    case Bool(b) => if b then "true" else "false"
    case Num(n) => IntToStringRoundTrip(n); IntToString(n)
    case _ => ""
  }

  /** `optString(name)`: the member as text, or "" when it is missing. */
  function OptString(o: Object, key: string): (r: string)
    ensures key !in o ==> r == ""
    ensures key in o && o[key].Str? ==> r == o[key].s
  {
    if key in o then ToText(o[key]) else ""
  }

  /** `optBoolean(name)`: false unless the member reads as true. */
  function OptBoolean(o: Object, key: string): (r: bool)
    ensures r <==> key in o && ToBoolean(o[key]) == Some(true)
  {
    if key in o then ToBoolean(o[key]).GetOr(false) else false
  }

  /** `optLong(name)`: a number as is (numbers are assumed to be in the
      64-bit range), a decimal integer text saturated to the 64-bit range,
      0 otherwise. */
  function OptLong(o: Object, key: string): (r: int)
    ensures key !in o ==> r == 0
    ensures key in o && o[key].Num? ==> r == o[key].n
  {
    if key !in o then 0
    else match o[key]
      case Num(n) => n
      case Str(s) =>
        (match ParseInt(s)
         case Some(n) => SaturateInt64(n)
         case None => 0)
      case _ => 0
  }

  /** `optInt(name)`: like `optLong`, except that a number is narrowed with
      `intValue()` (which wraps) and a decimal integer text is saturated to
      the 32-bit range. */
  function OptInt(o: Object, key: string): (r: int)
    ensures INT_MIN <= r <= INT_MAX
    ensures key !in o ==> r == 0
    ensures key in o && o[key].Num? && INT_MIN <= o[key].n <= INT_MAX ==> r == o[key].n
  {
    if key !in o then 0
    else match o[key]
      case Num(n) => ToInt32(n)
      case Str(s) =>
        (match ParseInt(s)
         case Some(n) => SaturateInt32(n)
         case None => 0)
      case _ => 0
  }

  /** `optJSONObject(name)`: the member when it is an object. */
  function OptObject(o: Object, key: string): (r: Option<Object>)
    ensures r.Some? <==> key in o && o[key].Obj?
    ensures r.Some? ==> o[key] == Obj(r.value)
  {
    if key in o && o[key].Obj? then Some(o[key].fields) else None
  }

  /** `optJSONArray(name)`: the member when it is an array. */
  function OptArray(o: Object, key: string): (r: Option<seq<Json>>)
    ensures r.Some? <==> key in o && o[key].Arr?
    ensures r.Some? ==> o[key] == Arr(r.value)
  {
    if key in o && o[key].Arr? then Some(o[key].items) else None
  }

  /** `getJSONObject(name)`; `None` stands for the thrown `JSONException`.
      It accepts exactly what `optJSONObject` accepts. */
  function GetObject(o: Object, key: string): (r: Option<Object>)
    ensures r == OptObject(o, key)
  {
    if key in o then
      match o[key]
      case Obj(f) => Some(f)
      case _ => None
    else None
  }

  /** `getBoolean(name)`; `None` stands for the thrown `JSONException`. */
  function GetBoolean(o: Object, key: string): (r: Option<bool>)
    ensures key !in o ==> r.None?
    ensures r.Some? ==> OptBoolean(o, key) == r.value
  {
    if key in o then ToBoolean(o[key]) else None
  }
}

=== FILE: player.dfy ===
/** The player screen's state and the reconciler (`handleTrackInfo`) that
    merges a fresh snapshot into it.  A reconciliation is a pure step from one
    `Screen` to the next, together with the ordered list of UI refreshes and
    requests it triggers (`Effect`).  The screen's fields are grouped by the
    concern that reads and writes them; every step of the reconciler touches
    one group. */
module Player {
  import opened Basics
  import opened Extract
  import opened Format

  /** The full-screen messages of the player. */
  datatype Message = Loading | NoInternet | NoTrackPlaying

  /** What a step asks of the UI or of the network, in the order it asks. */
  datatype Effect =
    | ShowMessage(message: Message)
    | HideMessage
    | ShowControls                      // controls shown and their hide timer restarted
    | ShowTrackText(title: string, artists: string)
    | LoadTrackImage(url: Option<string>, afterSwipe: bool)
    | FetchArtistImage(href: string)
    | FetchLikeStatus(trackId: string)
    | ShowShuffle(shuffle: bool, smart: bool, allowed: bool)
    | ShowVolume(percent: int)
    | ShowPlayButton(playing: bool)
    | ShowLike(liked: bool)
    | ShowTotalTime(text: string)
    | ShowProgress(text: string)
    | ShowDevice(name: string)
    | ShowArtistImage(imageUrl: string)
    | Toast(text: string)
    | ShowHeart                         // the double-tap heart animation
    | ShowVolumeBar                     // volume bar shown and its hide timer restarted
    | SendLike(trackId: string, like: bool)
    | SendVolume(percent: int)
    | SendSeek(positionMs: int)
    | SendPlayback(play: bool)
    | SendSkip(next: bool)
    | SendShuffle(on: bool)
    | FetchTrack                        // one player-state request
    | SchedulePoll                      // the next poll posted after the poll interval
    | StartAuthentication
    | NoInternetDialog

  /** The displayed track; `isImageSwiped` marks a running swipe animation of its cover. */
  datatype TrackView = TrackView(trackId: Option<string>, trackImage: Option<string>, totalDuration: int,
                                 isImageSwiped: bool)

  /** The play button; `isPlaybackChanged` marks a confirmed play/pause request. */
  datatype PlaybackView = PlaybackView(isPlaying: bool, isPlaybackChanged: bool)

  datatype ShuffleView = ShuffleView(isShuffle: bool, isSmartShuffle: bool, isShuffleAllowed: bool)

  /** The volume bar; `isVolumeChanged` marks a confirmed volume request. */
  datatype VolumeView = VolumeView(percentVolume: int, isSupportsVolume: bool, isVolumeChanged: bool)

  /** The like button; `isLikeRequestSent` marks a like request awaiting
      confirmation, `isLikeTaskRunning` that the last reconciliation queried. */
  datatype LikeView = LikeView(isLiked: bool, isLikeRequestSent: bool, isLikeTaskRunning: bool)

  /** The edge detectors of the two full-screen messages. */
  datatype Connection = Connection(isInternet: bool, noTrack: bool)

  /** The change detector of the artist image. */
  datatype ArtistImage = ArtistImage(isFirstArtistCall: bool, previousArtistImage: string)

  datatype Screen = Screen(
    track: TrackView,
    playback: PlaybackView,
    shuffle: ShuffleView,
    volume: VolumeView,
    like: LikeView,
    deviceName: Option<string>,
    isFirstCall: bool,
    isBarTouched: bool,
    connection: Connection,
    artist: ArtistImage,
    memory: Memory)

  /** The field initialisers of the screen. */
  const InitialScreen: Screen := Screen(
    TrackView(None, None, 0, false),
    PlaybackView(false, false),
    ShuffleView(false, false, false),
    VolumeView(100, false, false),
    LikeView(false, false, false),
    None, true, false,
    Connection(true, false),
    ArtistImage(true, ""),
    InitialMemory)

  /** The uncaught exceptions a step can run into. */
  datatype Fault = EmptyArtistList | MalformedItem | EmptyResponse

  /** A step's new value of its group, and its effects. */
  datatype Step<T> = Step(value: T, effects: seq<Effect>)

  /** A step over the whole screen that can also end in an uncaught exception. */
  datatype Reaction = Reacted(screen: Screen, effects: seq<Effect>) | Crashed(fault: Fault)

  /* ---------------------------- field setters ---------------------------- */

  /** `handlePlayButton`: records the playing state. */
  function PlayButton(p: PlaybackView, playing: bool): (r: PlaybackView)
    ensures r == PlaybackView(playing, p.isPlaybackChanged)
  {
    if playing then p.(isPlaying := true) else p.(isPlaying := false)
  }

  /** `handleLikeStatus`: records the like state. */
  function LikeStatus(l: LikeView, liked: bool): (r: LikeView)
    ensures r == LikeView(liked, l.isLikeRequestSent, l.isLikeTaskRunning)
  {
    if liked then l.(isLiked := true) else l.(isLiked := false)
  }

  /** `handleShuffleStatus` as the source writes it: the shuffle-off branch
      keeps the stored smart-shuffle flag, and the disallowed branch turns
      shuffle and smart shuffle off but keeps the stored permission. */
  function ShuffleStatusAsWritten(v: ShuffleView, shuffle: bool, smart: bool, allowed: bool): (r: ShuffleView)
    ensures allowed && shuffle ==> r == ShuffleView(true, smart, true)
    ensures allowed && !shuffle ==> r == ShuffleView(false, v.isSmartShuffle, true)
    ensures !allowed ==> r == ShuffleView(false, false, v.isShuffleAllowed)
  {
    if allowed then
      (if shuffle then v.(isSmartShuffle := smart, isShuffle := true) else v.(isShuffle := false))
        .(isShuffleAllowed := true)
    else
      v.(isShuffle := false, isSmartShuffle := false)
  }

  /** `handleShuffleStatus` recording what it shows: the reported permission,
      shuffle on only when allowed, smart shuffle only with shuffle on. */
  function ShuffleStatus(v: ShuffleView, shuffle: bool, smart: bool, allowed: bool): (r: ShuffleView)
    ensures r.isShuffleAllowed == allowed
    ensures r.isShuffle == (allowed && shuffle)
    ensures r.isSmartShuffle == (allowed && shuffle && smart)
  {
    if allowed then
      (if shuffle then v.(isSmartShuffle := smart, isShuffle := true)
       else v.(isShuffle := false, isSmartShuffle := false))
        .(isShuffleAllowed := true)
    else
      v.(isShuffle := false, isSmartShuffle := false, isShuffleAllowed := false)
  }

  /** `handleVolume`: without a volume nothing changes; with one, the volume
      is taken, and so is the support flag when it is reported. */
  function Volume(v: VolumeView, volume: Option<int>, supports: Option<bool>): (r: VolumeView)
    ensures volume.None? ==> r == v
    ensures volume.Some? ==> r.percentVolume == volume.value
    ensures r.isSupportsVolume == if volume.Some? && supports.Some? then supports.value else v.isSupportsVolume
    ensures r.isVolumeChanged == v.isVolumeChanged
  {
    match volume
    case None => v
    case Some(percent) =>
      var v1 := v.(percentVolume := percent);
      if supports.Some? && v1.isSupportsVolume != supports.value then v1.(isSupportsVolume := supports.value) else v1
  }

  /** `handleDeviceName`: only a non-empty name replaces the stored one. */
  function DeviceName(current: Option<string>, name: Option<string>): (r: Option<string>)
    ensures r == if name.Some? && name.value != "" then name else current
  {
    if !(name.None? || name.value == "") then name else current
  }

  /* ------------------------- reconciliation steps ------------------------ */

  function ArtistNames(artists: seq<Artist>): (names: seq<string>)
    ensures |names| == |artists|
    ensures forall i :: 0 <= i < |artists| ==> names[i] == artists[i].name
  {
    seq(|artists|, i requires 0 <= i < |artists| => artists[i].name)
  }

  /** Whether a new track's cover is (re)loaded: when it is a different image
      and no swipe animation is running, when nothing is shown yet, or after a
      running swipe animation. */
  predicate ReloadsCover(v: TrackView, t: TrackInfo, hasImage: bool) {
    !t.isSameImage || !hasImage || v.isImageSwiped
  }

  /** The cover refresh of a new track: one load request, deferred to the
      end of the swipe animation when one is running and an image is shown. */
  function CoverRefresh(v: TrackView, t: TrackInfo, hasImage: bool): (e: seq<Effect>)
    ensures !ReloadsCover(v, t, hasImage) ==> e == []
    ensures ReloadsCover(v, t, hasImage) ==> e == [LoadTrackImage(t.imageUrl, v.isImageSwiped && hasImage)]
  {
    var direct := (!t.isSameImage && !v.isImageSwiped) || !hasImage;
    if direct then [LoadTrackImage(t.imageUrl, false)]
    else if v.isImageSwiped then [LoadTrackImage(t.imageUrl, true)]
    else []
  }

  /** The refresh of a new track: id and duration recorded, title and artist
      line shown, the cover refreshed, the first artist's image requested, the
      total time shown, the swipe flag cleared.  `None` is the exception the
      source runs into on an empty artist list. */
  function NewTrack(v: TrackView, t: TrackInfo, hasImage: bool): (r: Option<Step<TrackView>>)
    ensures r.None? <==> |t.artists| == 0
    ensures r.Some? ==>
      && r.value.value == TrackView(Some(t.id), if ReloadsCover(v, t, hasImage) then t.imageUrl else v.trackImage,
                                    t.durationMs, false)
      && |r.value.effects| >= 3
      && r.value.effects[0] == ShowTrackText(t.title, Joined(ArtistNames(t.artists)))
      && r.value.effects[|r.value.effects| - 2] == FetchArtistImage(t.artists[0].href)
      && r.value.effects[|r.value.effects| - 1] == ShowTotalTime(Clock(t.durationMs))
      && (|r.value.effects| == 4 <==> ReloadsCover(v, t, hasImage))
  {
    if |t.artists| == 0 then None
    else
      var cover := CoverRefresh(v, t, hasImage);
      var image := if cover != [] then t.imageUrl else v.trackImage;
      Some(Step(TrackView(Some(t.id), image, t.durationMs, false),
                Around(ShowTrackText(t.title, Joined(ArtistNames(t.artists))), cover,
                       FetchArtistImage(t.artists[0].href), ShowTotalTime(Clock(t.durationMs)))))
  }

  /** One effect, a list of effects, then two more. */
  function Around(a: Effect, middle: seq<Effect>, b: Effect, c: Effect): (e: seq<Effect>)
    ensures |e| == |middle| + 3 && e[0] == a && e[|e| - 2] == b && e[|e| - 1] == c
  {
    [a] + middle + [b, c]
  }

  /** The like-status throttle: a query is issued only when no like request
      awaits confirmation and the previous reconciliation did not query;
      `isLikeTaskRunning` records that this one did. */
  function LikeThrottle(l: LikeView, id: string): (r: Step<LikeView>)
    ensures r.effects == if !l.isLikeTaskRunning && !l.isLikeRequestSent then [FetchLikeStatus(id)] else []
    ensures r.value == l.(isLikeTaskRunning := !l.isLikeTaskRunning && !l.isLikeRequestSent)
  {
    if l.isLikeTaskRunning then Step(l.(isLikeTaskRunning := false), [])
    else if !l.isLikeRequestSent then Step(l.(isLikeTaskRunning := true), [FetchLikeStatus(id)])
    else Step(l, [])
  }

  predicate ShuffleDiffers(v: ShuffleView, t: TrackInfo) {
    t.isShuffle != v.isShuffle || t.isSmartShuffle != v.isSmartShuffle || t.isShuffleAllowed != v.isShuffleAllowed
  }

  /** The shuffle refresh: only when one of the three shuffle values differs;
      afterwards the stored permission is the reported one. */
  function ShuffleRefresh(v: ShuffleView, t: TrackInfo): (r: Step<ShuffleView>)
    ensures !ShuffleDiffers(v, t) ==> r == Step(v, [])
    ensures ShuffleDiffers(v, t) ==> r.effects == [ShowShuffle(t.isShuffle, t.isSmartShuffle, t.isShuffleAllowed)]
    ensures r.value.isShuffleAllowed == t.isShuffleAllowed
  {
    if ShuffleDiffers(v, t) then
      Step(ShuffleStatus(v, t.isShuffle, t.isSmartShuffle, t.isShuffleAllowed),
           [ShowShuffle(t.isShuffle, t.isSmartShuffle, t.isShuffleAllowed)])
    else Step(v, [])
  }

  predicate VolumeDiffers(v: VolumeView, t: TrackInfo) {
    t.volume != Some(v.percentVolume) || t.isSupportsVolume != Some(v.isSupportsVolume)
  }

  /** The volume refresh with its skip-once rule: a pending volume request
      is consumed and the displayed volume kept; otherwise the reported volume
      (when there is one) is taken, and shown when it differs. */
  function VolumeRefresh(v: VolumeView, t: TrackInfo): (r: Step<VolumeView>)
    ensures !r.value.isVolumeChanged
    ensures v.isVolumeChanged ==> r == Step(v.(isVolumeChanged := false), [])
    ensures !v.isVolumeChanged ==>
      && r.value.percentVolume == t.volume.GetOr(v.percentVolume)
      && r.value.isSupportsVolume == (if t.volume.Some? && t.isSupportsVolume.Some? then t.isSupportsVolume.value
                                      else v.isSupportsVolume)
      && r.effects == (if t.volume.Some? && VolumeDiffers(v, t) then [ShowVolume(t.volume.value)] else [])
  {
    if v.isVolumeChanged then Step(v.(isVolumeChanged := false), [])
    else if VolumeDiffers(v, t) then
      Step(Volume(v, t.volume, t.isSupportsVolume), if t.volume.Some? then [ShowVolume(t.volume.value)] else [])
    else Step(v, [])
  }

  /** The playback refresh with the same skip-once rule; otherwise the
      reported state is taken, and the button redrawn when it differs or on
      the first reconciliation. */
  function PlaybackRefresh(p: PlaybackView, isFirstCall: bool, t: TrackInfo): (r: Step<PlaybackView>)
    ensures !r.value.isPlaybackChanged
    ensures p.isPlaybackChanged ==> r == Step(p.(isPlaybackChanged := false), [])
    ensures !p.isPlaybackChanged ==> r.value.isPlaying == t.isCurrentlyPlaying
    ensures !p.isPlaybackChanged ==>
      r.effects == if t.isCurrentlyPlaying != p.isPlaying || isFirstCall then [ShowPlayButton(t.isCurrentlyPlaying)] else []
  {
    if p.isPlaybackChanged then Step(p.(isPlaybackChanged := false), [])
    else if !(t.isCurrentlyPlaying == p.isPlaying && !isFirstCall) then
      Step(PlayButton(p, t.isCurrentlyPlaying), [ShowPlayButton(t.isCurrentlyPlaying)])
    else Step(p, [])
  }

  /** The progress clock, left alone while the seek bar is held. */
  function ProgressRefresh(isBarTouched: bool, t: TrackInfo): (e: seq<Effect>)
    ensures isBarTouched ==> e == []
    ensures !isBarTouched ==> e == [ShowProgress(Clock(t.currentProgress))]
  {
    if !isBarTouched then [ShowProgress(Clock(t.currentProgress))] else []
  }

  /** The device refresh: a different, non-empty name replaces the shown one. */
  function DeviceRefresh(current: Option<string>, t: TrackInfo): (r: Step<Option<string>>)
    ensures r.value == if t.deviceName.Some? && t.deviceName.value != "" then t.deviceName else current
    ensures r.effects == if t.deviceName != current && t.deviceName.Some? && t.deviceName.value != "" then [ShowDevice(t.deviceName.value)] else []
  {
    if t.deviceName != current then
      var present := t.deviceName.Some? && t.deviceName.value != "";
      Step(DeviceName(current, t.deviceName), if present then [ShowDevice(t.deviceName.value)] else [])
    else Step(current, [])
  }

  /** The device refresh settles: refreshing again with the same snapshot
      keeps the stored name and shows nothing. */
  lemma DeviceRefreshSettles(current: Option<string>, t: TrackInfo)
    ensures var r1 := DeviceRefresh(current, t);
            DeviceRefresh(r1.value, t) == Step(r1.value, [])
  {
  }

  /** The first-call refresh: the message hidden and the controls shown. */
  function FirstCallRefresh(isFirstCall: bool): (e: seq<Effect>)
    ensures isFirstCall <==> e != []
    ensures isFirstCall ==> e == [HideMessage, ShowControls]
  {
    if isFirstCall then [HideMessage, ShowControls] else []
  }

  /** The track refresh: nothing for the same track, `NewTrack` otherwise. */
  function TrackRefresh(v: TrackView, t: TrackInfo, hasImage: bool): (r: Option<Step<TrackView>>)
    ensures t.isSameTrack ==> r == Some(Step(v, []))
    ensures r.None? <==> !t.isSameTrack && |t.artists| == 0
  {
    if t.isSameTrack then Some(Step(v, [])) else NewTrack(v, t, hasImage)
  }

  /** The screen and effects of one reconciliation, assembled from its steps
      in the source's order; the first call is over afterwards. */
  function Merge(s: Screen, first: seq<Effect>, track: Step<TrackView>, like: Step<LikeView>,
                 shuffle: Step<ShuffleView>, volume: Step<VolumeView>, playback: Step<PlaybackView>,
                 progress: seq<Effect>, device: Step<Option<string>>): (r: Reaction)
    ensures r.Reacted? && !r.screen.isFirstCall
    ensures r.screen.connection == s.connection && r.screen.artist == s.artist && r.screen.memory == s.memory
  {
    Reacted(s.(track := track.value, like := like.value, shuffle := shuffle.value, volume := volume.value,
               playback := playback.value, isFirstCall := false, deviceName := device.value),
            first + track.effects + like.effects + shuffle.effects + volume.effects
            + playback.effects + progress + device.effects)
  }

  /** The reconciler (`handleTrackInfo`), in the source's order: first-call
      message, new-track refresh, like throttle, shuffle, volume, playback,
      end of the first call, progress, device.  Every step reads the screen as
      it was before the reconciliation: each touches its own group only. */
  function Reconcile(s: Screen, t: TrackInfo, hasImage: bool): (r: Reaction)
    // A snapshot without id or title changes nothing.
    ensures t.id == "" || t.title == "" ==> r == Reacted(s, [])
    // The only exception: a new track without artists.
    ensures r.Crashed? <==> t.id != "" && t.title != "" && !t.isSameTrack && |t.artists| == 0
    // The message flags, the image detectors and the seek bar are not the reconciler's.
    ensures r.Reacted? ==> r.screen.connection == s.connection && r.screen.artist == s.artist && r.screen.memory == s.memory
                           && r.screen.isBarTouched == s.isBarTouched
  {
    if t.id == "" || t.title == "" then Reacted(s, [])
    else
      match TrackRefresh(s.track, t, hasImage)
      case None => Crashed(EmptyArtistList)
      case Some(track) =>
        Merge(s, FirstCallRefresh(s.isFirstCall), track, LikeThrottle(s.like, t.id), ShuffleRefresh(s.shuffle, t),
              VolumeRefresh(s.volume, t), PlaybackRefresh(s.playback, s.isFirstCall, t),
              ProgressRefresh(s.isBarTouched, t), DeviceRefresh(s.deviceName, t))
  }

  /** The number of times `x` occurs in a list of effects. */
  function Count(e: seq<Effect>, x: Effect): (n: nat)
    ensures n <= |e|
  {
    if |e| == 0 then 0 else (if e[0] == x then 1 else 0) + Count(e[1..], x)
  }

  lemma {:induction false} CountAppend(a: seq<Effect>, b: seq<Effect>, x: Effect)
    ensures Count(a + b, x) == Count(a, x) + Count(b, x)
    decreases |a|
  {
    if |a| == 0 {
      assert a + b == b;
    } else {
      assert (a + b)[1..] == a[1..] + b;
      CountAppend(a[1..], b, x);
    }
  }

  lemma {:induction false} CountAbsent(e: seq<Effect>, x: Effect)
    requires forall i :: 0 <= i < |e| ==> e[i] != x
    ensures Count(e, x) == 0
    decreases |e|
  {
    if |e| > 0 {
      CountAbsent(e[1..], x);
    }
  }

  /* ------------------------------ properties ----------------------------- */

  /** A snapshot whose shuffle values can occur together: smart shuffle only
      with shuffle on, and neither while toggling is disallowed. */
  predicate ConsistentShuffle(t: TrackInfo) {
    (t.isSmartShuffle ==> t.isShuffle) && (!t.isShuffleAllowed ==> !t.isShuffle)
  }

  /** The shuffle refresh as the source writes it (through `ShuffleStatusAsWritten`). */
  function ShuffleRefreshAsWritten(v: ShuffleView, t: TrackInfo): (r: Step<ShuffleView>)
    ensures !ShuffleDiffers(v, t) ==> r == Step(v, [])
    ensures ShuffleDiffers(v, t) ==> r.effects == [ShowShuffle(t.isShuffle, t.isSmartShuffle, t.isShuffleAllowed)]
  {
    if ShuffleDiffers(v, t) then
      Step(ShuffleStatusAsWritten(v, t.isShuffle, t.isSmartShuffle, t.isShuffleAllowed),
           [ShowShuffle(t.isShuffle, t.isSmartShuffle, t.isShuffleAllowed)])
    else Step(v, [])
  }

  /** With the permission recorded, one refresh brings the stored shuffle
      state in line with any consistent snapshot, so the next poll of the same
      state redraws nothing. */
  lemma ShuffleSettles(v: ShuffleView, t: TrackInfo)
    requires ConsistentShuffle(t)
    ensures !ShuffleDiffers(ShuffleRefresh(v, t).value, t)
    ensures ShuffleRefresh(ShuffleRefresh(v, t).value, t).effects == []
  {
  }

  /** As written, two consistent reports never settle: shuffle turned off
      after smart shuffle, and shuffle disallowed after it was allowed.  In
      both the same snapshot redraws the shuffle button on every poll. */
  lemma ShuffleAsWrittenNeverSettles()
    ensures var v := ShuffleView(true, true, true);
            var t := NoTrack.(isShuffle := false, isSmartShuffle := false, isShuffleAllowed := true);
            && ConsistentShuffle(t)
            && ShuffleDiffers(ShuffleRefreshAsWritten(v, t).value, t)
            && ShuffleRefreshAsWritten(ShuffleRefreshAsWritten(v, t).value, t).effects == [ShowShuffle(false, false, true)]
    ensures var v := ShuffleView(false, false, true);
            var t := NoTrack.(isShuffle := false, isSmartShuffle := false, isShuffleAllowed := false);
            && ConsistentShuffle(t)
            && ShuffleDiffers(ShuffleRefreshAsWritten(v, t).value, t)
            && ShuffleRefreshAsWritten(ShuffleRefreshAsWritten(v, t).value, t).effects == [ShowShuffle(false, false, false)]
  {
  }

  /** On the first reconciliation of a usable snapshot the message is hidden
      and the controls shown before anything else, and the first call is
      over afterwards. */
  lemma ReconcileFirstCall(s: Screen, t: TrackInfo, hasImage: bool)
    requires t.id != "" && t.title != ""
    requires Reconcile(s, t, hasImage).Reacted?
    ensures var r := Reconcile(s, t, hasImage);
            && (s.isFirstCall ==> |r.effects| >= 2 && r.effects[0] == HideMessage && r.effects[1] == ShowControls)
            && !r.screen.isFirstCall
  {
    var track := TrackRefresh(s.track, t, hasImage).value;
    ReconcileMerges(s, t, hasImage);
    MergeStartsWithFirst(s, FirstCallRefresh(s.isFirstCall), track, LikeThrottle(s.like, t.id),
                         ShuffleRefresh(s.shuffle, t), VolumeRefresh(s.volume, t),
                         PlaybackRefresh(s.playback, s.isFirstCall, t), ProgressRefresh(s.isBarTouched, t),
                         DeviceRefresh(s.deviceName, t));
  }

  /** A new track replaces the stored track id and duration and clears the
      swipe flag; the same track leaves the track group as it was. */
  lemma ReconcileTrackFields(s: Screen, t: TrackInfo, hasImage: bool)
    requires t.id != "" && t.title != ""
    requires Reconcile(s, t, hasImage).Reacted?
    ensures var r := Reconcile(s, t, hasImage);
            && (!t.isSameTrack ==> r.screen.track.trackId == Some(t.id) && r.screen.track.totalDuration == t.durationMs
                                   && !r.screen.track.isImageSwiped)
            && (t.isSameTrack ==> r.screen.track == s.track)
  {
  }

  /** A confirmed volume or play/pause request makes the next reconciliation
      keep the displayed value; the one after it takes the reported value. */
  lemma ReconcileSkipsOnce(s: Screen, t: TrackInfo, hasImage: bool)
    requires t.id != "" && t.title != "" && t.isSameTrack
    requires s.volume.isVolumeChanged && s.playback.isPlaybackChanged
    requires t.volume.Some?
    ensures var r1 := Reconcile(s, t, hasImage);
            && r1.Reacted?
            && r1.screen.volume.percentVolume == s.volume.percentVolume
            && r1.screen.playback.isPlaying == s.playback.isPlaying
            && var r2 := Reconcile(r1.screen, t, hasImage);
               && r2.Reacted?
               && r2.screen.volume.percentVolume == t.volume.value
               && r2.screen.playback.isPlaying == t.isCurrentlyPlaying
  {
    var r1 := Reconcile(s, t, hasImage);
    assert r1.screen.volume == VolumeRefresh(s.volume, t).value;
    assert r1.screen.playback == PlaybackRefresh(s.playback, s.isFirstCall, t).value;
    var r2 := Reconcile(r1.screen, t, hasImage);
    assert r2.screen.volume == VolumeRefresh(r1.screen.volume, t).value;
    assert r2.screen.playback == PlaybackRefresh(r1.screen.playback, r1.screen.isFirstCall, t).value;
  }

  /** A reconciliation that does not stop early is the merge of its steps. */
  lemma ReconcileMerges(s: Screen, t: TrackInfo, hasImage: bool)
    requires t.id != "" && t.title != ""
    requires TrackRefresh(s.track, t, hasImage).Some?
    ensures Reconcile(s, t, hasImage)
            == Merge(s, FirstCallRefresh(s.isFirstCall), TrackRefresh(s.track, t, hasImage).value,
                     LikeThrottle(s.like, t.id), ShuffleRefresh(s.shuffle, t), VolumeRefresh(s.volume, t),
                     PlaybackRefresh(s.playback, s.isFirstCall, t), ProgressRefresh(s.isBarTouched, t),
                     DeviceRefresh(s.deviceName, t))
  {
  }

  /** The occurrences of an effect in a reconciliation are those in its steps. */
  lemma MergeCount(s: Screen, first: seq<Effect>, track: Step<TrackView>, like: Step<LikeView>,
                   shuffle: Step<ShuffleView>, volume: Step<VolumeView>, playback: Step<PlaybackView>,
                   progress: seq<Effect>, device: Step<Option<string>>, x: Effect)
    ensures Count(Merge(s, first, track, like, shuffle, volume, playback, progress, device).effects, x)
            == Count(first, x) + Count(track.effects, x) + Count(like.effects, x) + Count(shuffle.effects, x)
               + Count(volume.effects, x) + Count(playback.effects, x) + Count(progress, x) + Count(device.effects, x)
  {
    var e1 := first + track.effects;
    var e2 := e1 + like.effects;
    var e3 := e2 + shuffle.effects;
    var e4 := e3 + volume.effects;
    var e5 := e4 + playback.effects;
    var e6 := e5 + progress;
    CountAppend(first, track.effects, x);
    CountAppend(e1, like.effects, x);
    CountAppend(e2, shuffle.effects, x);
    CountAppend(e3, volume.effects, x);
    CountAppend(e4, playback.effects, x);
    CountAppend(e5, progress, x);
    CountAppend(e6, device.effects, x);
  }

  /** The first-call effects lead the effects of a reconciliation. */
  lemma MergeStartsWithFirst(s: Screen, first: seq<Effect>, track: Step<TrackView>, like: Step<LikeView>,
                             shuffle: Step<ShuffleView>, volume: Step<VolumeView>, playback: Step<PlaybackView>,
                             progress: seq<Effect>, device: Step<Option<string>>)
    ensures var e := Merge(s, first, track, like, shuffle, volume, playback, progress, device).effects;
            |first| <= |e| && forall i :: 0 <= i < |first| ==> e[i] == first[i]
  {
  }

  /** A track refresh never queries the like status. */
  lemma TrackNoLikeQuery(v: TrackView, t: TrackInfo, hasImage: bool, id: string)
    requires TrackRefresh(v, t, hasImage).Some?
    ensures Count(TrackRefresh(v, t, hasImage).value.effects, FetchLikeStatus(id)) == 0
  {
    if !t.isSameTrack {
      NewTrackNoLikeQuery(v, t, hasImage, id);
    }
  }

  lemma NewTrackNoLikeQuery(v: TrackView, t: TrackInfo, hasImage: bool, id: string)
    requires |t.artists| > 0
    ensures Count(NewTrack(v, t, hasImage).value.effects, FetchLikeStatus(id)) == 0
  {
    var cover := CoverRefresh(v, t, hasImage);
    CountAbsent(cover, FetchLikeStatus(id));
    CountAround(ShowTrackText(t.title, Joined(ArtistNames(t.artists))), cover,
                FetchArtistImage(t.artists[0].href), ShowTotalTime(Clock(t.durationMs)), FetchLikeStatus(id));
  }


  lemma CountAround(a: Effect, middle: seq<Effect>, b: Effect, c: Effect, x: Effect)
    requires a != x && b != x && c != x
    ensures Count(Around(a, middle, b, c), x) == Count(middle, x)
  {
    CountAppend([a], middle, x);
    CountAppend([a] + middle, [b, c], x);
  }

  /** Apart from the track refresh, only the like throttle queries the like status. */
  lemma OtherStepsNoLikeQuery(s: Screen, t: TrackInfo, id: string)
    ensures Count(FirstCallRefresh(s.isFirstCall), FetchLikeStatus(id)) == 0
    ensures Count(ShuffleRefresh(s.shuffle, t).effects, FetchLikeStatus(id)) == 0
    ensures Count(VolumeRefresh(s.volume, t).effects, FetchLikeStatus(id)) == 0
    ensures Count(PlaybackRefresh(s.playback, s.isFirstCall, t).effects, FetchLikeStatus(id)) == 0
    ensures Count(ProgressRefresh(s.isBarTouched, t), FetchLikeStatus(id)) == 0
    ensures Count(DeviceRefresh(s.deviceName, t).effects, FetchLikeStatus(id)) == 0
  {
    var q := FetchLikeStatus(id);
    CountAbsent(FirstCallRefresh(s.isFirstCall), q);
    CountAbsent(ShuffleRefresh(s.shuffle, t).effects, q);
    CountAbsent(VolumeRefresh(s.volume, t).effects, q);
    CountAbsent(PlaybackRefresh(s.playback, s.isFirstCall, t).effects, q);
    CountAbsent(ProgressRefresh(s.isBarTouched, t), q);
    CountAbsent(DeviceRefresh(s.deviceName, t).effects, q);
  }

  /** A reconciliation queries the like status of the snapshot's track at
      most once, and does exactly when no like request awaits confirmation
      and the previous reconciliation did not query; the screen records
      whether it did. */
  lemma ReconcileLikeQuery(s: Screen, t: TrackInfo, hasImage: bool)
    requires t.id != "" && t.title != ""
    requires Reconcile(s, t, hasImage).Reacted?
    ensures var r := Reconcile(s, t, hasImage);
            && Count(r.effects, FetchLikeStatus(t.id))
               == (if !s.like.isLikeTaskRunning && !s.like.isLikeRequestSent then 1 else 0)
            && (r.screen.like.isLikeTaskRunning <==> Count(r.effects, FetchLikeStatus(t.id)) == 1)
  {
    var q := FetchLikeStatus(t.id);
    var track := TrackRefresh(s.track, t, hasImage).value;
    var like := LikeThrottle(s.like, t.id);
    ReconcileMerges(s, t, hasImage);
    TrackNoLikeQuery(s.track, t, hasImage, t.id);
    OtherStepsNoLikeQuery(s, t, t.id);
    MergeOnlyLike(s, FirstCallRefresh(s.isFirstCall), track, like, ShuffleRefresh(s.shuffle, t),
                  VolumeRefresh(s.volume, t), PlaybackRefresh(s.playback, s.isFirstCall, t),
                  ProgressRefresh(s.isBarTouched, t), DeviceRefresh(s.deviceName, t), q);
    LikeThrottleCount(s.like, t.id);
  }

  /** An effect only the like step produces occurs in the reconciliation as
      often as in that step, and the like state is that step's. */
  lemma MergeOnlyLike(s: Screen, first: seq<Effect>, track: Step<TrackView>, like: Step<LikeView>,
                      shuffle: Step<ShuffleView>, volume: Step<VolumeView>, playback: Step<PlaybackView>,
                      progress: seq<Effect>, device: Step<Option<string>>, x: Effect)
    requires Count(first, x) == 0 && Count(track.effects, x) == 0 && Count(shuffle.effects, x) == 0
    requires Count(volume.effects, x) == 0 && Count(playback.effects, x) == 0
    requires Count(progress, x) == 0 && Count(device.effects, x) == 0
    ensures var r := Merge(s, first, track, like, shuffle, volume, playback, progress, device);
            Count(r.effects, x) == Count(like.effects, x) && r.screen.like == like.value
  {
    MergeCount(s, first, track, like, shuffle, volume, playback, progress, device, x);
  }


  lemma LikeThrottleCount(l: LikeView, id: string)
    ensures Count(LikeThrottle(l, id).effects, FetchLikeStatus(id))
            == (if !l.isLikeTaskRunning && !l.isLikeRequestSent then 1 else 0)
  {
  }

  /** While no like request is pending, of two reconciliations in a row
      exactly one queries the like status. */
  lemma LikeQueryEveryOtherPoll(s: Screen, t: TrackInfo, hasImage: bool)
    requires t.id != "" && t.title != "" && t.isSameTrack
    requires !s.like.isLikeRequestSent
    ensures var r1 := Reconcile(s, t, hasImage);
            && r1.Reacted?
            && var r2 := Reconcile(r1.screen, t, hasImage);
               && r2.Reacted?
               && Count(r1.effects, FetchLikeStatus(t.id)) + Count(r2.effects, FetchLikeStatus(t.id)) == 1
  {
    var r1 := Reconcile(s, t, hasImage);
    ReconcileLikeQuery(s, t, hasImage);
    ReconcileLikeQuery(r1.screen, t, hasImage);
  }
}

=== FILE: polling.dfy ===
/** The polling loop of the player screen: the access-token expiry test, the
    periodic task that either re-authenticates or fetches the player state,
    one poll from the fetched body to the reconciled screen, and the start of
    polling when the screen (re)appears. */
module Polling {
  import opened Basics
  import opened Json
  import opened Extract
  import opened Player
  import opened Connectivity

  /** The safety margin of the expiry test: five minutes, in milliseconds. */
  const EXPIRY_MARGIN_MS: int := 300000

  /** `String.toLong()`: a signed decimal in the 64-bit range; `None` is the
      `NumberFormatException`. */
  function ParseLong(s: string): (r: Option<int>)
    ensures r.Some? ==> LONG_MIN <= r.value <= LONG_MAX && ParseInt(s) == r
  {
    match ParseInt(s)
    case Some(n) => if LONG_MIN <= n <= LONG_MAX then Some(n) else None
    case None => None
  }

  /** `isTokenExpired` at time `now` (milliseconds, a JVM `long`): an empty
      expiration counts as expired; otherwise the token is expired when it
      expires within the margin (the addition wraps like a `long`).  `None`
      is the exception an unparsable expiration throws. */
  function IsTokenExpired(expiration: string, now: int): (r: Option<bool>)
    ensures expiration == "" ==> r == Some(true)
    ensures r.None? <==> expiration != "" && ParseLong(expiration).None?
  {
    if expiration != "" then
      match ParseLong(expiration)
      case Some(e) => Some(ToInt64(now + EXPIRY_MARGIN_MS) > e)
      case None => None
    else Some(true)
  }

  /** The stored expiration is always the text of a `long`, so the test never
      throws and compares the clock plus the margin with that instant. */
  lemma StoredExpirationIsRead(e: int, now: int)
    requires LONG_MIN <= e <= LONG_MAX
    requires LONG_MIN <= now <= LONG_MAX - EXPIRY_MARGIN_MS
    ensures IsTokenExpired(IntToString(e), now) == Some(now + EXPIRY_MARGIN_MS > e)
    ensures 0 <= now ==> IsTokenExpired(IntToString(0), now) == Some(true)
  {
    IntToStringRoundTrip(e);
    IntToStringRoundTrip(0);
  }

  /** One run of the periodic task (`fetchRunnable`): re-authenticate when
      the token is expired, fetch the player state otherwise, and in both
      cases post the next run. */
  function PollTick(expired: bool): (e: seq<Effect>)
    ensures |e| == 2 && e[1] == SchedulePoll
    ensures e[0] == (if expired then StartAuthentication else FetchTrack)
  {
    (if expired then [StartAuthentication] else [FetchTrack]) + [SchedulePoll]
  }

  /** The outcome of the player-state request: an exception (after which the
      connectivity service is asked again), or a body with its parsed
      document. */
  datatype TrackFetch = FetchFailed(availableAfter: bool) | Fetched(text: string, doc: Object)

  /** One poll (`fetchCurrentTrack` with the checks of `fetchTrackFromApi`):
      the connectivity check, the request, the "no track" check, the
      extraction, and, for a snapshot with an id, the reconciliation. */
  function Poll(s: Screen, available: bool, fetch: TrackFetch, hasImage: bool): (r: Reaction)
    // Offline, nothing but the connectivity flag changes.
    ensures !available ==> r.Reacted? && r.screen == s.(connection := s.connection.(isInternet := false))
    // The exceptions are those of the extractor and of the reconciler.
    ensures r.Crashed? ==> available && fetch.Fetched? && TrackPlaying(fetch.text, fetch.doc)
  {
    var net := CheckInternet(s.connection, available);
    var s1 := s.(connection := net.value);
    if !available then Reacted(s1, net.effects)
    else
      match fetch
      case FetchFailed(availableAfter) =>
        var again := CheckInternet(s1.connection, availableAfter);
        Reacted(s1.(connection := again.value), net.effects + again.effects)
      case Fetched(text, doc) =>
        var state := CheckTrackState(s1.connection, text, doc);
        var s2 := s1.(connection := state.value);
        if !TrackPlaying(text, doc) then Reacted(s2, net.effects + state.effects)
        else
          match ExtractTrackInfo(doc, s2.memory)
          case Malformed => Crashed(MalformedItem)
          case Extracted(info, memory) =>
            var s3 := s2.(memory := memory);
            if info.id == "" then Reacted(s3, net.effects + state.effects)
            else
              match Reconcile(s3, info, hasImage)
              case Crashed(fault) => Crashed(fault)
              case Reacted(s4, e) => Reacted(s4, net.effects + state.effects + e)
  }

  /** A body without a playing track leaves the displayed track, the
      extractor's detectors and every displayed field alone; only the two
      message flags change. */
  lemma PollWithoutTrack(s: Screen, available: bool, text: string, doc: Object, hasImage: bool)
    requires available && !TrackPlaying(text, doc)
    ensures var r := Poll(s, available, Fetched(text, doc), hasImage);
            && r.Reacted?
            && r.screen == s.(connection := Connection(true, true))
  {
  }

  /** The main path: online, a playing track whose snapshot has an id is
      reconciled on the screen with both message flags cleared and the
      extractor's new detectors; ahead of the reconciliation's effects each
      of the two messages that was up is hidden. */
  lemma PollReconciles(s: Screen, text: string, doc: Object, hasImage: bool)
    requires TrackPlaying(text, doc)
    requires ExtractTrackInfo(doc, s.memory).Extracted? && ExtractTrackInfo(doc, s.memory).info.id != ""
    ensures var x := ExtractTrackInfo(doc, s.memory);
            var ready := s.(connection := Connection(true, false), memory := x.memory);
            var before := (if !s.connection.isInternet then [HideMessage] else [])
                          + (if s.connection.noTrack then [HideMessage] else []);
            var r := Poll(s, true, Fetched(text, doc), hasImage);
            && (r.Crashed? <==> Reconcile(ready, x.info, hasImage).Crashed?)
            && (r.Reacted? ==> r.screen == Reconcile(ready, x.info, hasImage).screen
                               && r.effects == before + Reconcile(ready, x.info, hasImage).effects)
  {
  }

  /** A poll of a playing track stores the extractor's new detectors, whether
      or not the snapshot goes on to be reconciled. */
  lemma PollKeepsDetectors(s: Screen, text: string, doc: Object, hasImage: bool)
    requires TrackPlaying(text, doc)
    requires ExtractTrackInfo(doc, s.memory).Extracted?
    requires Poll(s, true, Fetched(text, doc), hasImage).Reacted?
    ensures Poll(s, true, Fetched(text, doc), hasImage).screen.memory == ExtractTrackInfo(doc, s.memory).memory
    ensures !Poll(s, true, Fetched(text, doc), hasImage).screen.connection.noTrack
  {
  }

  /** `checkTokenAndStartFetchingTask`: the next reconciliation counts as the
      first; with a valid token the loading message is shown and polling
      starts, otherwise the connectivity check decides between
      re-authenticating and the "no internet" dialog. */
  function Start(s: Screen, expired: bool, available: bool): (r: Step<Screen>)
    ensures r.value.isFirstCall
    ensures !expired ==> r == Step(s.(isFirstCall := true), [ShowMessage(Loading), SchedulePoll])
    ensures expired ==> r.value.connection.isInternet == available
    ensures expired ==> |r.effects| > 0 && r.effects[|r.effects| - 1] == (if available then StartAuthentication else NoInternetDialog)
  {
    var s1 := s.(isFirstCall := true);
    if !expired then Step(s1, [ShowMessage(Loading), SchedulePoll])
    else
      var net := CheckInternet(s1.connection, available);
      Step(s1.(connection := net.value), net.effects + [if available then StartAuthentication else NoInternetDialog])
  }

  /** After (re)starting, the first reconciliation of a usable snapshot
      hides the message and shows the controls before anything else. */
  lemma StartThenReconcile(s: Screen, expired: bool, available: bool, t: TrackInfo, hasImage: bool)
    requires t.id != "" && t.title != ""
    requires Reconcile(Start(s, expired, available).value, t, hasImage).Reacted?
    ensures var r := Reconcile(Start(s, expired, available).value, t, hasImage);
            |r.effects| >= 2 && r.effects[0] == HideMessage && r.effects[1] == ShowControls
  {
    ReconcileFirstCall(Start(s, expired, available).value, t, hasImage);
  }
}

=== FILE: responses.dfy ===
/** The two side requests of a reconciliation and how their responses are
    applied: the artist image (`fetchArtistImage`, `extractArtistImage`) with
    its change detector, and the like status (`fetchLikeStatus`,
    `extractLikeStatus`), applied only when it differs. */
module Responses {
  import opened Basics
  import opened Json
  import opened Player

  /** The outcome of a side request: the request failed (`false`), or a body
      with its parsed form. */
  datatype Response<P> = Failed | Body(text: string, parsed: P)

  /** The text gate of both side requests as written: `text.first()` throws
      on an empty body, which the API helper returns when the response has
      none. */
  function GateAsWritten<P>(r: Response<P>, opening: char): (g: Option<Option<Response<P>>>)
    ensures g.None? <==> r.Body? && r.text == ""
    ensures g.Some? && g.value.Some? ==> g.value.value == r && r.Body? && r.text[0] == opening
  {
    match r
    case Failed => Some(None)
    case Body(text, _) =>
      if |text| == 0 then None
      else if text[0] != opening then Some(None)
      else Some(Some(r))
  }

  /** The gate as intended: an empty body is dropped like any other body that
      does not start with the expected bracket. */
  function Gate<P>(r: Response<P>, opening: char): (g: Option<Response<P>>)
    ensures g.Some? <==> r.Body? && |r.text| > 0 && r.text[0] == opening
    ensures g.Some? ==> g.value == r
    ensures GateAsWritten(r, opening).Some? ==> GateAsWritten(r, opening).value == g
  {
    if r.Body? && |r.text| > 0 && r.text[0] == opening then Some(r) else None
  }

  /** An empty body crashes the gate as written and is dropped by the
      corrected one. */
  lemma EmptyBodyCrashesGate<P>(parsed: P)
    ensures GateAsWritten(Body("", parsed), '{').None?
    ensures GateAsWritten(Body("", parsed), '[').None?
    ensures Gate(Body("", parsed), '{').None? && Gate(Body("", parsed), '[').None?
  {
  }

  /* ------------------------------ artist image ---------------------------- */

  /** `handleArtistImage`: a non-empty URL is shown, anything else reported. */
  function ArtistImageRefresh(url: Option<string>): (e: seq<Effect>)
    ensures url.Some? && url.value != "" ==> e == [ShowArtistImage(url.value)]
    ensures !(url.Some? && url.value != "") ==> e == [Toast("Artist image not available")]
  {
    if url.Some? && url.value != "" then [ShowArtistImage(url.value)] else [Toast("Artist image not available")]
  }

  /** `extractArtistImage` on a body and its parsed document.  An error
      object is reported; otherwise the first image URL (if any) is compared
      with the previous one, and the image refreshed when it differs or on the
      first response.  `None` is the exception of a first image entry that is
      not an object. */
  function ExtractArtistImage(a: ArtistImage, text: string, doc: Object): (r: Option<Step<ArtistImage>>)
    ensures text == "" ==> r == Some(Step(a, []))
    ensures r.None? <==> text != "" && OptObject(doc, "error").None? && OptArray(doc, "images").Some?
                         && |OptArray(doc, "images").value| > 0 && !OptArray(doc, "images").value[0].Obj?
  {
    if text == "" then Some(Step(a, []))
    else match OptObject(doc, "error")
      case Some(error) => Some(Step(a, [Toast("Error fetching artist image: " + OptString(error, "message"))]))
      case None =>
        match OptArray(doc, "images")
        case Some(images) =>
          if |images| == 0 then ArtistImageChange(a, None)
          else if !images[0].Obj? then None
          else ArtistImageChange(a, Some(OptString(images[0].fields, "url")))
        case None => ArtistImageChange(a, None)
  }

  /** The change detection of `extractArtistImage` for the extracted URL. */
  function ArtistImageChange(a: ArtistImage, url: Option<string>): (r: Option<Step<ArtistImage>>)
    ensures r.Some?
    // The previous URL follows the extracted one.
    ensures r.value.value.previousArtistImage == if url.Some? then url.value else a.previousArtistImage
    // The image is refreshed when it is not the previous one, or on the first response.
    ensures var same := url.Some? && url.value == a.previousArtistImage;
            && (r.value.effects != [] <==> !same || a.isFirstArtistCall)
            && (r.value.effects != [] ==> r.value.effects == ArtistImageRefresh(url) && !r.value.value.isFirstArtistCall)
            && (r.value.effects == [] ==> r.value.value == a)
  {
    var same := url.Some? && url.value == a.previousArtistImage;
    var a1 := if url.Some? && !same then a.(previousArtistImage := url.value) else a;
    if !same || a1.isFirstArtistCall then Some(Step(a1.(isFirstArtistCall := false), ArtistImageRefresh(url)))
    else Some(Step(a1, []))
  }

  /** A response carrying an image URL, applied twice in a row: the second
      time nothing is refreshed and nothing changes. */
  lemma ArtistImageSettles(a: ArtistImage, url: string)
    ensures var once := ArtistImageChange(a, Some(url)).value;
            ArtistImageChange(once.value, Some(url)) == Some(Step(once.value, []))
  {
  }

  /** `fetchArtistImage` as written: the gate, then the extraction. */
  function ArtistResponseAsWritten(a: ArtistImage, r: Response<Object>): (x: Option<Step<ArtistImage>>)
    ensures r.Body? && r.text == "" ==> x.None?
  {
    match GateAsWritten(r, '{')
    case None => None
    case Some(None) => Some(Step(a, []))
    case Some(Some(body)) => ExtractArtistImage(a, body.text, body.parsed)
  }

  /** `fetchArtistImage` with the corrected gate: an empty body changes
      nothing, and only a non-object first image entry is an exception. */
  function ArtistResponse(a: ArtistImage, r: Response<Object>): (x: Option<Step<ArtistImage>>)
    ensures r.Body? && r.text == "" ==> x == Some(Step(a, []))
    ensures x.None? ==> r.Body? && OptArray(r.parsed, "images").Some?
  {
    match Gate(r, '{')
    case None => Some(Step(a, []))
    case Some(body) => ExtractArtistImage(a, body.text, body.parsed)
  }

  /* ------------------------------- like status ---------------------------- */

  /** The rate-limit message, with the missing space of the source's string
      concatenation. */
  const RATE_LIMITED: string := "Too many Like requests, please use only one device at a time with thesame client ID"

  /** The like state a like-status body carries: the first element of the
      array read with `getBoolean(0)`; `None` is the `JSONException` of a
      missing array, an empty one, or a first element with no boolean
      reading. */
  function LikedOf(asArray: Option<seq<Json>>): (b: Option<bool>)
    ensures b.Some? ==> asArray.Some? && |asArray.value| > 0 && ToBoolean(asArray.value[0]) == b
  {
    if asArray.Some? && |asArray.value| > 0 then ToBoolean(asArray.value[0]) else None
  }

  /** `extractLikeStatus` on a body, its parse as an asArray and its parse as
      an object.  A like state is applied only when it differs from the shown
      one; a body without one is reported according to its content. */
  function ExtractLikeStatus(l: LikeView, text: string, asArray: Option<seq<Json>>, asObject: Option<Object>): (r: Step<LikeView>)
    ensures r.value.isLikeRequestSent == l.isLikeRequestSent && r.value.isLikeTaskRunning == l.isLikeTaskRunning
    ensures text != "" && LikedOf(asArray).Some? ==>
      && r.value.isLiked == LikedOf(asArray).value
      && r.effects == (if LikedOf(asArray).value != l.isLiked then [ShowLike(LikedOf(asArray).value)] else [])
    ensures text == "" || LikedOf(asArray).None? ==> r.value == l
    ensures text != "" && LikedOf(asArray).None? && Contains(text, "Too many requests") ==>
      r.effects == [Toast(RATE_LIMITED)]
  {
    if text == "" then Step(l, [])
    else match LikedOf(asArray)
      case Some(liked) =>
        if liked != l.isLiked then Step(LikeStatus(l, liked), [ShowLike(liked)]) else Step(l, [])
      case None =>
        if Contains(text, "Too many requests") then
          Step(l, [Toast(RATE_LIMITED)])
        else match asObject
          case None => Step(l, [])
          case Some(o) =>
            match OptObject(o, "error")
            case Some(error) => Step(l, [Toast("Error in like request: " + OptString(error, "message"))])
            case None => Step(l, [Toast("Error processing like response")])
  }

  /** The same like-status body applied twice: the second time it changes
      nothing and shows nothing. */
  lemma LikeStatusSettles(l: LikeView, text: string, asArray: Option<seq<Json>>)
    requires text != "" && LikedOf(asArray).Some?
    ensures var once := ExtractLikeStatus(l, text, asArray, None);
            ExtractLikeStatus(once.value, text, asArray, None) == Step(once.value, [])
  {
  }

  /** `fetchLikeStatus` as written.  A body that passed the gate starts with
      `[`, so its parse as an object always fails. */
  function LikeResponseAsWritten(l: LikeView, r: Response<Option<seq<Json>>>): (x: Option<Step<LikeView>>)
    ensures r.Body? && r.text == "" ==> x.None?
  {
    match GateAsWritten(r, '[')
    case None => None
    case Some(None) => Some(Step(l, []))
    case Some(Some(body)) => Some(ExtractLikeStatus(l, body.text, body.parsed, None))
  }

  /** `fetchLikeStatus` with the corrected gate: it never throws, and only a
      body starting with `[` is read. */
  function LikeResponse(l: LikeView, r: Response<Option<seq<Json>>>): (x: Step<LikeView>)
    ensures !(r.Body? && |r.text| > 0 && r.text[0] == '[') ==> x == Step(l, [])
    ensures r.Body? && |r.text| > 0 && r.text[0] == '[' ==> x == ExtractLikeStatus(l, r.text, r.parsed, None)
  {
    match Gate(r, '[')
    case None => Step(l, [])
    case Some(body) => ExtractLikeStatus(l, body.text, body.parsed, None)
  }

  /** Behind the gate the object branch is unreachable: a body without a like
      state shows at most the "too many requests" message. */
  lemma GatedLikeErrorsAreRateLimits(l: LikeView, r: Response<Option<seq<Json>>>)
    ensures var x := LikeResponse(l, r);
            x.effects == [] || x.effects == [ShowLike(x.value.isLiked)]
            || x.effects == [Toast(RATE_LIMITED)]
  {
  }
}
